=== FILE: README.md ===
# auto_match: playlist-to-guide matching, modelled in Dafny

`auto_match.py` takes an IPTV playlist (extended M3U) and an XMLTV
programme guide. It finds, for every playlist entry, the guide channel
whose display name is most similar to the entry's name. It then writes two
files:

- a new playlist in which every matched entry carries a `tvg-id`;
- a guide cut down to the matched channels and their programmes.

This project models that pipeline as pure functions over strings and
proves what each stage promises:

- **Playlist scanner** (`parse_m3u_channels`): a line scanner with a
  pending-name register. An `#EXTINF` line sets the register to the text
  after its first comma. The next URL line consumes the name and emits an
  entry. Blank lines and other comments change nothing.
- **Guide channel parser** (`parse_epg_channels`): a scan for
  `<channel id="…">…</channel>` elements and their
  `<display-name …>…</display-name>` children. The names are collected
  into an insertion-ordered dict from channel id to cleaned names.
- **Matcher** (`find_best_match` and the loop in `main`): every
  (id, display name) pair is scored in dict order. A strictly higher score
  takes over, so ties go to the first pair. The best id is accepted when its
  score reaches `MIN_SIMILARITY` = 0.82.
- **Playlist writer** (`build_new_m3u`): a header line, then a metadata
  line and a URL line per entry.
- **Guide filter** (`build_filtered_epg`): the guide's header, then the
  channel elements and programme elements that refer to used ids, then
  `</tv>`.

Modules, leaves first:

- `Wrappers`: `Option`.
- `Text`: Python's whitespace and line-break tables, `str.strip`, `\s+`
  collapsing, `str.splitlines` and `str.join`.
- `Seqs`: an order-keeping filter.
- `Matches`: `re.findall` over a pattern given as a match function.
- `GuideBlocks`: the five regular expressions run over the guide.
- `Playlist`: the scanner and the writer.
- `Guide`: the channel dict.
- `Matcher`: scoring, the best match and the matching loop.
- `GuideProjector`: the filtered guide.
- `Pipeline`: `main` without its I/O.

Each regular expression is modelled as a search for its literal
delimiters. A ghost `…Shape` predicate says where the pattern can match. The
matcher function returns the match the regex engine picks, and it proves:

- the match is absent exactly when no shape exists;
- lazy groups take the shortest text;
- `.` does not cross a newline where `re.DOTALL` is not given.

Two behaviours of the code deserve a note:

- **The first comma.** The playlist name is the text after the *first*
  comma of an `#EXTINF` line (`split(",", 1)`), so a name may itself hold
  commas.
- **Repeated channel ids.** When a guide repeats a channel id, the dict
  keeps that id at the position of its first element that has display
  names, and the value is the names of its *last* element that has display
  names. A later element without display names is skipped and does not
  erase anything. The position matters, because dict order decides ties in
  the matcher.

## Model

| member | source | states |
|---|---|---|
| Text.Strip | auto_match.py:34 | The result has no whitespace at either end; a string already trimmed is unchanged |
| Text.StripSlice | auto_match.py:34 | The stripped text is a slice of the input with only whitespace cut from each side |
| Text.Clean | auto_match.py:51 | A cleaned display name is trimmed, holds only single plain spaces, keeps every non-whitespace character of the captured text in order, and is exactly the words of the text (the runs `split()` gives) joined by single spaces |
| Text.CollapseSpace | auto_match.py:51 | After `\s+` → `" "` no whitespace character other than a single space remains, no two spaces are adjacent, and the non-whitespace characters are those of the input |
| Text.Words | auto_match.py:51 | Every word is non-empty and holds no whitespace |
| Text.CollapseWords | auto_match.py:51 | `\s+` → `" "` gives the words joined by single spaces, with one space in front exactly when the text starts with whitespace and one behind exactly when it ends with whitespace after a word |
| Text.StripPadded | auto_match.py:51 | Stripping whitespace padding from trimmed text gives back that text |
| Text.StripCollapsed | auto_match.py:51 | Collapsing whitespace runs and then stripping gives the words joined by single spaces |
| Text.SplitLines | auto_match.py:30 | No line produced by `splitlines` holds a line break |
| Text.SplitLinesRebuild | auto_match.py:30 | The text is every line followed by the break that ended it (`\r\n` counting as one break); only the last line may lack a break and then it is not empty, and a lone `\r` break is never followed by `\n` |
| Text.SplitUnlines | auto_match.py:30 | Splitting newline-terminated lines that hold no break gives back exactly those lines |
| Text.JoinThenNewline | auto_match.py:83 | Joining with newlines and adding a final newline terminates every line with a newline |
| Text.JoinEnds | auto_match.py:109 | A newline join starts with its first piece and ends with its last |
| Text.FirstIndex | auto_match.py:36-37 | Finds the first occurrence of a character, and None exactly when the character is absent |
| Playlist.NameAfterComma | auto_match.py:36-39 | A metadata line yields no name exactly when it holds no comma |
| Playlist.NameAfterFirstComma | auto_match.py:37 | The name is the stripped text after the FIRST comma of the line |
| Playlist.ScanLines | auto_match.py:33-42 | Every emitted entry has a non-empty trimmed name and a non-empty trimmed URL not starting with `#`; entries plus a live pending name never outnumber the `#EXTINF` lines |
| Playlist.Step | auto_match.py:34-42 | One line never removes entries and adds at most one; when it adds one, a live name was pending and the register is emptied |
| Playlist.ParseM3u | auto_match.py:28-44 | Entries are well formed and at most one per `#EXTINF` line |
| Playlist.ParsedEntriesSingleLine | auto_match.py:30 | No parsed name or URL holds a line break |
| Playlist.ScanProvenance | auto_match.py:33-42 | Every entry pairs the name of an `#EXTINF` line with a later URL line with no `#EXTINF` between them; a live pending name comes from an `#EXTINF` line not yet superseded |
| Playlist.EntriesGrow | auto_match.py:33-42 | Scanning further lines only appends to the entries found so far |
| Playlist.PendingAfter | auto_match.py:35-39 | After any `#EXTINF` line followed only by lines that are neither `#EXTINF` nor URL lines, the register holds that line's name (the stripped text after its first comma, or none) and the entries are those from before it |
| Playlist.PendingIsLatest | auto_match.py:35-39 | With only such lines after it, the latest `#EXTINF` line decides the register |
| Playlist.UrlEmits | auto_match.py:40-42 | A URL line after a live name appends exactly that name with the stripped URL and empties the register |
| Playlist.EntryEmitted | auto_match.py:33-42 | Conversely to the provenance: a named `#EXTINF` line whose next `#EXTINF` or URL line is a URL line yields its entry, at the position right after the entries of the lines before it |
| Playlist.ParseEmits | auto_match.py:28-44 | Such a pair of lines in the playlist text gives an entry of the parsed playlist |
| Playlist.IdleUntilExtinf | auto_match.py:40-42 | With no name pending, URL and comment lines emit nothing and leave the register empty: orphan URLs are dropped and a name is consumed once |
| Playlist.UrlClearsRegister | auto_match.py:40-42 | After a URL line no name is pending |
| Playlist.NamelessExtinfClears | auto_match.py:35-39 | An `#EXTINF` line without a comma or with an empty name clears the register and emits nothing |
| Playlist.NeutralLine | auto_match.py:33-42 | A blank line or a non-`#EXTINF` comment anywhere can be removed without changing the result |
| Playlist.M3uLines | auto_match.py:75-82 | The written playlist has 1 + 2n lines with the `#EXTM3U url-tvg=…` header first |
| Playlist.M3uLinesAt | auto_match.py:76-82 | Entry i's metadata line is at line 1 + 2i and its URL at 2 + 2i, so entries keep their order and none is dropped |
| Playlist.BuildNewM3u | auto_match.py:83 | The output is the lines, each terminated by a newline |
| Playlist.TvgTagIffMapped | auto_match.py:77-81 | For any id, a metadata line opens with `#EXTINF:-1 tvg-id="` exactly when `mapping.get(name)` is a non-empty id |
| Playlist.TvgIdIffMapped | auto_match.py:77-81 | A metadata line carries `tvg-id="…"` exactly when `mapping.get(name)` is a non-empty id, and then carries that id |
| Playlist.ExtinfLineNamesEntry | auto_match.py:79-81 | For a well-formed entry whose id (if any) holds no comma, the written metadata line is an `#EXTINF` line whose first comma is followed by exactly the entry's name |
| Playlist.ParseBuildRoundTrip | auto_match.py:74-83 | Parsing the written playlist gives back exactly the entries it was written from, for ids free of commas and line breaks |
| Matches.FindAll | auto_match.py:48 | `re.findall` reports matches in document order, without overlap, each a real match of the pattern |
| Matches.FindAllCovers | auto_match.py:48 | Every position where the pattern can start a match lies inside a reported match: no match is skipped |
| GuideBlocks.ChannelAt | auto_match.py:48 | The channel pattern fails exactly when no `<channel id="…">…</channel>` shape starts there; otherwise both lazy groups are the shortest and the element is the guide's own text |
| GuideBlocks.ChannelBlocks | auto_match.py:48 | The channel elements are matches of the pattern, inside the guide, in document order and without overlap |
| GuideBlocks.ChannelBlockVerbatim | auto_match.py:101 | A channel element rebuilt from its id and body is the exact text of the guide it was found at |
| GuideBlocks.ChannelBlocksCover | auto_match.py:48 | Every position where the channel pattern matches lies inside a reported element |
| GuideBlocks.DisplayNameAt | auto_match.py:50 | The display-name pattern fails exactly when no shape starts there; `[^>]*` stops at the first `>`, the text is the shortest and crosses no newline |
| GuideBlocks.DisplayNames | auto_match.py:50 | The display names are matches in order and without overlap |
| GuideBlocks.DisplayNamesCover | auto_match.py:50 | Every position where the display-name pattern matches lies inside a reported name |
| GuideBlocks.ProgrammeAt | auto_match.py:95 | The programme pattern fails exactly when no `<programme…</programme>` shape starts there; otherwise the body is the shortest one |
| GuideBlocks.ProgrammeBlocks | auto_match.py:95 | The programme elements are matches in document order and without overlap |
| GuideBlocks.ProgrammeBlockVerbatim | auto_match.py:106 | A programme element rebuilt from its body is the exact text of the guide it was found at |
| GuideBlocks.ProgrammeBlocksCover | auto_match.py:95 | Every position where the programme pattern matches lies inside a reported element |
| GuideBlocks.AttrAt | auto_match.py:104 | `channel="(.*?)"` fails at a position exactly when no quote closes it on the same line; otherwise the value is the shortest |
| GuideBlocks.SearchAttr | auto_match.py:104 | `re.search` finds the leftmost position where the attribute pattern matches, and none when no position does |
| GuideBlocks.HeaderAt | auto_match.py:86 | The header pattern fails exactly when no `<tv…>` tag exists; otherwise it ends at the first `>` after the first `<tv` |
| Guide.Lookup | auto_match.py:53 | `d.get(id)` is None exactly when the id is not a key, and otherwise the value stored with it |
| Guide.Put | auto_match.py:53 | `d[id] = v` keeps an existing key in place and appends a new one; no other item changes |
| Guide.PutDistinct | auto_match.py:53 | Assignment keeps keys unique |
| Guide.LookupPut | auto_match.py:53 | After `d[id] = v`, `d.get(id)` is `v` and every other key reads as before |
| Guide.Aliases | auto_match.py:50-51 | One cleaned name per display name, each trimmed with single spaces, keeping the captured text's non-whitespace characters, and equal to the text's words joined by single spaces |
| Guide.Collect | auto_match.py:49-53 | The dict built by the loop never holds an id twice |
| Guide.CollectAbsent | auto_match.py:49-53 | An id is a key exactly when some channel element with that id has at least one display name |
| Guide.CollectLatest | auto_match.py:49-53 | A key's value is the names of the last element with that id that has names; later elements with that id have none |
| Guide.CollectOrder | auto_match.py:49-53 | Keys are ordered by the first element with names that introduced them |
| Guide.ParseEpgChannels | auto_match.py:46-54 | Ids are unique, each maps to a non-empty list, and every name is cleaned |
| Guide.ParsedChannelSource | auto_match.py:46-54 | A parsed id's names are the cleaned display names of the last channel element with that id and with names |
| Guide.ParsedIffNamed | auto_match.py:46-54 | An id is parsed exactly when some channel element with that id has a display name |
| Guide.ParsedIdsAreChannelIds | auto_match.py:46-54 | Every parsed id is the id of a channel element of the guide |
| Matcher.PairsOfGuide | auto_match.py:63-64 | The nested loop visits exactly the display names of each channel, paired with that channel's id |
| Matcher.Consider | auto_match.py:65-68 | One comparison never lowers the held score and leaves it at least the score of the pair just compared; the result is either unchanged or that pair's id with a strictly higher score |
| Matcher.Running | auto_match.py:60-68 | The running best is at least 0.0 and no visited pair scores above it; it holds an id exactly when some pair scored above 0.0 |
| Matcher.RunningWitness | auto_match.py:66-68 | The held id and score are those of the first visited pair reaching the best score; every earlier pair scores strictly less |
| Matcher.FindBestMatch | auto_match.py:59-72 | No display name scores above the returned score; an id is returned exactly when the score is at least 0.82, and it is a guide id; an empty guide gives (None, 0.0) |
| Matcher.BestScoreIsMax | auto_match.py:59-72 | For a guide with some display name, the returned score is reached by one of them: it is the maximum |
| Matcher.FirstToReachWins | auto_match.py:63-68 | Ties go to the first pair in dict order: the returned id is that of the first pair reaching the best score |
| Matcher.ExactMatchAccepted | auto_match.py:56-72 | A display name equal to the playlist name after lower-casing makes the score 1.0 and a match is returned |
| Matcher.MatchAll | auto_match.py:126-137 | `used_ids` is exactly the set of mapped ids and never holds ""; keys are playlist names; a name is mapped exactly when its match is accepted, and to that match's id |
| Matcher.MatchStep | auto_match.py:130-134 | One turn of the loop keeps those facts for one more entry |
| Matcher.InsertKeepsValues | auto_match.py:133-134 | Recording a name with its id adds that id to the used ids and keeps "" out |
| Matcher.ValuesAfterInsert | auto_match.py:133-134 | A new key adds its value to the map's values |
| GuideProjector.Header | auto_match.py:86-90 | The header is the guide up to the `>` of its first `<tv` tag, or the fallback header when there is none |
| GuideProjector.KeptChannels | auto_match.py:99-101 | Exactly the channel elements with a used id are kept, in document order |
| GuideProjector.KeptProgrammes | auto_match.py:103-106 | Exactly the programme elements whose first `channel="…"` value is used are kept, in document order |
| GuideProjector.KeptIdsAreUsedIds | auto_match.py:99-101 | The kept channel ids are exactly the used ids that the guide has a channel element for |
| GuideProjector.PiecesEnds | auto_match.py:97-108 | The output pieces are the header, one per kept channel and programme, and `</tv>` last |
| GuideProjector.PiecesChannels | auto_match.py:99-101 | After the header come the kept channel elements, each copied verbatim from the guide |
| GuideProjector.PiecesProgrammes | auto_match.py:103-106 | After the channels come the kept programme elements, each copied verbatim from the guide |
| GuideProjector.BuildFilteredEpg | auto_match.py:108-109 | The filtered guide is the pieces (header, kept channel elements, kept programmes, `</tv>`) joined by newlines: with one more newline every piece is a line of its own; it starts with the header (or the fallback) and ends with `</tv>` |
| Pipeline.Run | auto_match.py:119-145 | A parsed playlist name is mapped exactly when the matcher accepts it, and to the id it found; the new playlist is the parsed one with those ids written in and parses back to the old entries; `used_ids` are the mapped ids and ids of guide channel elements; the filtered guide is the newline join of the header, the kept channel elements, the kept programmes and `</tv>`, where the kept channel elements are those of exactly the used ids, so every written tvg-id names a kept channel, and every kept programme refers to a kept channel |
| Pipeline.RoundTrip | auto_match.py:140 | The new playlist parses back to the entries of the old one when no id holds a comma or a line break |
| Pipeline.UsedAreChannelIds | auto_match.py:131-134 | Every used id is the id of a channel element of the guide |

## Left out

- `download_text` and `download_gzip_xml` (lines 17-26) are left out: the network, gzip and the lossy UTF-8 decode. The two downloaded texts are parameters of `Pipeline.Run`.
- The progress prints, the `[OK]`/`[SKIP]` lines with formatted scores, and the file writes with their gzip encoding (lines 112-152) are left out, and so are the URL and file-name constants (lines 9-13).
- `similarity` (lines 56-57) is a parameter. `difflib.SequenceMatcher(...).ratio()` and `str.lower` are supplied as functions. The proofs rely on two properties of the ratio: it lies in [0, 1], and a string compared with itself scores 1.0. The matching-blocks algorithm and its junk heuristic are not modelled.
- Scores are exact reals, not IEEE doubles. `MIN_SIMILARITY` is the rational 41/50. A score within rounding distance of 0.82 may compare differently in Python.
- `str.lower` covers Unicode case mapping and is a parameter. `str.isspace`, `\s` and the `splitlines` break set are written out as code-point tables.
- A general regex engine is not modelled. Each of the five patterns is modelled by its own delimiter search.
- `GuideBlocks.ChannelAttr` (the first `channel="…"` value of a programme) has no contract of its own. What it returns is stated by `GuideBlocks.SearchAttr` and `GuideBlocks.AttrAt`.
- `Matcher.Score` (`similarity`, lines 56-57) has no contract of its own: it applies the supplied lower-casing to both strings and then the supplied ratio. What the matcher needs of it is stated by `Matcher.Valid`, and its use is stated by `Matcher.Consider`, `Matcher.Running` and `Matcher.FindBestMatch`.
- Matcher.ExactMatchAccepted: does not claim that the channel holding the equal name is the one chosen. An earlier channel that also scores 1.0 wins the tie, as `Matcher.FirstToReachWins` states.
- Playlist.ParseBuildRoundTrip: holds only for ids without commas or line breaks. A comma in an id would move the first comma of the written metadata line into the `tvg-id` value.
- Pipeline.Run: states the playlist round trip only for ids without commas or line breaks, for the same reason.
- Playlist.TvgIdIffMapped: reads the id back only for ids without a `"`. With a quote inside, the attribute value ends early. Whether the tag is present at all is stated for every id by `Playlist.TvgTagIffMapped`.
- Python's in-place updates of `mapping` and `used_ids` become values threaded through the loop of `Matcher.MatchAll`.

=== FILE: guide.dfy ===
/**
 * `parse_epg_channels`: the dict from guide channel id to the cleaned
 * display names of that channel. Python dicts keep insertion order, and
 * that order decides ties in the matcher, so the dict is an association
 * list: assigning to an existing key keeps its position and replaces its
 * value, a new key goes at the end.
 */
module Guide {
  import opened Wrappers
  import opened Text
  import opened GuideBlocks

  /** One dict item: a channel id and its cleaned display names, in document order. */
  datatype Channel = Channel(id: string, aliases: seq<string>)

  /** The ids in dict order. */
  function Ids(g: seq<Channel>): (ids: seq<string>)
    ensures |ids| == |g| && forall i :: 0 <= i < |g| ==> ids[i] == g[i].id
  {
    if |g| == 0 then [] else [g[0].id] + Ids(g[1..])
  }

  /** Dict keys are unique. */
  predicate DistinctIds(g: seq<Channel>) {
    forall i, j :: 0 <= i < j < |g| ==> g[i].id != g[j].id
  }

  /** Every channel has at least one display name, and every name is cleaned. */
  predicate Cleaned(c: Channel) {
    |c.aliases| > 0 && forall k :: 0 <= k < |c.aliases| ==> Normalized(c.aliases[k])
  }

  /** `d.get(id)`. */
  function Lookup(g: seq<Channel>, id: string): (r: Option<seq<string>>)
    ensures r.None? <==> id !in Ids(g)
    ensures r.Some? ==> Channel(id, r.value) in g
  {
    if |g| == 0 then None
    else if g[0].id == id then Some(g[0].aliases)
    else Lookup(g[1..], id)
  }

  /** `d[id] = aliases`: an existing key keeps its position and takes the new value, a new key goes last. */
  function Put(g: seq<Channel>, id: string, aliases: seq<string>): (r: seq<Channel>)
    ensures Ids(r) == if id in Ids(g) then Ids(g) else Ids(g) + [id]
    ensures forall i :: 0 <= i < |r| ==> r[i] in g || r[i] == Channel(id, aliases)
  {
    if |g| == 0 then [Channel(id, aliases)]
    else if g[0].id == id then [Channel(id, aliases)] + g[1..]
    else [g[0]] + Put(g[1..], id, aliases)
  }

  /** Keys stay unique. */
  lemma PutDistinct(g: seq<Channel>, id: string, aliases: seq<string>)
    requires DistinctIds(g)
    ensures DistinctIds(Put(g, id, aliases))
  {
    var r := Put(g, id, aliases);
    forall i, j | 0 <= i < j < |r| ensures r[i].id != r[j].id {
      assert Ids(r)[i] == r[i].id && Ids(r)[j] == r[j].id;
      if id !in Ids(g) && j == |g| {
        assert Ids(g)[i] == g[i].id;
      } else {
        assert Ids(g)[i] == g[i].id && Ids(g)[j] == g[j].id;
      }
    }
  }

  /** After `d[id] = aliases`, `d.get(id)` is `aliases` and every other key reads as before. */
  lemma {:induction false} LookupPut(g: seq<Channel>, id: string, aliases: seq<string>, k: string)
    ensures Lookup(Put(g, id, aliases), k) == if k == id then Some(aliases) else Lookup(g, k)
  {
    if |g| > 0 && g[0].id != id {
      LookupPut(g[1..], id, aliases, k);
      assert Put(g, id, aliases)[1..] == Put(g[1..], id, aliases);
    }
  }

  // ---------------------------------------------------------------------
  // The loop over channel blocks
  // ---------------------------------------------------------------------

  /** The cleaned display names of a channel body: each captured text with whitespace runs made one space, then stripped. */
  function Aliases(inner: string): (names: seq<string>)
    ensures |names| == |DisplayNames(inner)|
    ensures forall i :: 0 <= i < |names| ==>
      Normalized(names[i]) && NonSpace(names[i]) == NonSpace(DisplayNames(inner)[i].text)
    ensures forall i :: 0 <= i < |names| ==> names[i] == Join(" ", Words(DisplayNames(inner)[i].text))
  {
    var ns := DisplayNames(inner);
    seq(|ns|, i requires 0 <= i < |ns| => Clean(ns[i].text))
  }

  /** What one block of the loop offers to the dict: its id and its cleaned display names. */
  function Offers(bs: seq<ChannelBlock>): (items: seq<Channel>)
    ensures |items| == |bs|
    ensures forall i :: 0 <= i < |bs| ==> items[i] == Channel(bs[i].id, Aliases(bs[i].inner))
  {
    seq(|bs|, i requires 0 <= i < |bs| => Channel(bs[i].id, Aliases(bs[i].inner)))
  }

  /** An offer assigns `id` when it carries that id and at least one name; an offer without names is skipped. */
  predicate Assigns(c: Channel, id: string) {
    c.id == id && |c.aliases| > 0
  }

  /** The loop of `parse_epg_channels` over the offers of the channel blocks, in document order. */
  function Collect(cs: seq<Channel>): (g: seq<Channel>)
    ensures DistinctIds(g)
    decreases |cs|
  {
    if |cs| == 0 then []
    else
      var g := Collect(cs[..|cs| - 1]);
      var c := cs[|cs| - 1];
      if |c.aliases| > 0 then
        PutDistinct(g, c.id, c.aliases);
        Put(g, c.id, c.aliases)
      else
        g
  }

  /** The last offer decides: one with names is a dict assignment, one without is skipped. */
  lemma CollectSnoc(cs: seq<Channel>)
    requires |cs| > 0
    ensures Collect(cs) ==
      if |cs[|cs| - 1].aliases| > 0 then Put(Collect(cs[..|cs| - 1]), cs[|cs| - 1].id, cs[|cs| - 1].aliases)
      else Collect(cs[..|cs| - 1])
  {
  }

  /** Every channel the loop records comes from an offer with names. */
  lemma {:induction false} CollectFromOffers(cs: seq<Channel>)
    ensures forall i :: 0 <= i < |Collect(cs)| ==> Collect(cs)[i] in cs && |Collect(cs)[i].aliases| > 0
    decreases |cs|
  {
    if |cs| > 0 {
      CollectSnoc(cs);
      CollectFromOffers(cs[..|cs| - 1]);
    }
  }

  /** `parse_epg_channels`: unique ids, each with at least one display name, every name cleaned. */
  function ParseEpgChannels(xml: string): (g: seq<Channel>)
    ensures DistinctIds(g)
    ensures forall i :: 0 <= i < |g| ==> Cleaned(g[i])
  {
    var cs := Offers(ChannelBlocks(xml));
    CollectFromOffers(cs);
    Collect(cs)
  }

  /** One more offer changes `d.get(id)` only when it assigns `id`. */
  lemma LookupCollectSnoc(cs: seq<Channel>, id: string)
    requires |cs| > 0
    ensures Lookup(Collect(cs), id) ==
      if Assigns(cs[|cs| - 1], id) then Some(cs[|cs| - 1].aliases) else Lookup(Collect(cs[..|cs| - 1]), id)
  {
    var c := cs[|cs| - 1];
    CollectSnoc(cs);
    if |c.aliases| > 0 {
      LookupPut(Collect(cs[..|cs| - 1]), c.id, c.aliases, id);
    }
  }

  /** No offer of `cs` assigns `id`. */
  predicate NoneAssign(cs: seq<Channel>, id: string) {
    forall i :: 0 <= i < |cs| ==> !Assigns(cs[i], id)
  }

  lemma NoneAssignSnoc(cs: seq<Channel>, id: string)
    requires |cs| > 0
    ensures NoneAssign(cs, id) <==> NoneAssign(cs[..|cs| - 1], id) && !Assigns(cs[|cs| - 1], id)
  {
    assert forall i :: 0 <= i < |cs| - 1 ==> cs[..|cs| - 1][i] == cs[i];
  }

  /** The dict has a key exactly when some offer assigns it. */
  lemma {:induction false} CollectAbsent(cs: seq<Channel>, id: string)
    ensures Lookup(Collect(cs), id).None? <==> forall i :: 0 <= i < |cs| ==> !Assigns(cs[i], id)
    decreases |cs|
  {
    if |cs| > 0 {
      CollectAbsent(cs[..|cs| - 1], id);
      LookupCollectSnoc(cs, id);
      NoneAssignSnoc(cs, id);
    }
  }

  /** A key's value is the names of the LAST offer that assigned it. */
  lemma {:induction false} CollectLatest(cs: seq<Channel>, id: string) returns (i: nat)
    requires Lookup(Collect(cs), id).Some?
    ensures i < |cs| && Assigns(cs[i], id)
    ensures Lookup(Collect(cs), id) == Some(cs[i].aliases)
    ensures forall j :: i < j < |cs| ==> !Assigns(cs[j], id)
    decreases |cs|
  {
    var cs' := cs[..|cs| - 1];
    LookupCollectSnoc(cs, id);
    if Assigns(cs[|cs| - 1], id) {
      i := |cs| - 1;
    } else {
      i := CollectLatest(cs', id);
      assert cs[i] == cs'[i];
      assert forall j :: i < j < |cs| - 1 ==> cs[j] == cs'[j];
    }
  }

  /** The index of the first offer assigning `id`, or `|cs|` when none does. */
  function FirstAssign(cs: seq<Channel>, id: string): (n: nat)
    ensures n <= |cs|
    ensures n < |cs| ==> Assigns(cs[n], id)
    ensures forall j :: 0 <= j < n ==> !Assigns(cs[j], id)
    decreases |cs|
  {
    if |cs| == 0 then 0
    else
      var n := FirstAssign(cs[..|cs| - 1], id);
      assert forall j :: 0 <= j < |cs| - 1 ==> cs[j] == cs[..|cs| - 1][j];
      if n < |cs| - 1 then n
      else if Assigns(cs[|cs| - 1], id) then |cs| - 1
      else |cs|
  }

  /** Every id of `ids` is assigned in `cs`, and `ids` lists them in order of first assignment. */
  predicate FirstOrdered(ids: seq<string>, cs: seq<Channel>) {
    && (forall i :: 0 <= i < |ids| ==> FirstAssign(cs, ids[i]) < |cs|)
    && (forall i, j :: 0 <= i < j < |ids| ==> FirstAssign(cs, ids[i]) < FirstAssign(cs, ids[j]))
  }

  /** One more offer does not move the first assignment of an id already assigned. */
  lemma FirstOrderedSnoc(ids: seq<string>, cs: seq<Channel>)
    requires |cs| > 0 && FirstOrdered(ids, cs[..|cs| - 1])
    ensures FirstOrdered(ids, cs)
  {
    assert forall i :: 0 <= i < |ids| ==> FirstAssign(cs, ids[i]) == FirstAssign(cs[..|cs| - 1], ids[i]);
  }

  /** An id first assigned by the last offer goes after all earlier ones. */
  lemma FirstOrderedAppend(ids: seq<string>, cs: seq<Channel>, x: string)
    requires |cs| > 0 && FirstOrdered(ids, cs[..|cs| - 1]) && FirstOrdered(ids, cs)
    requires FirstAssign(cs, x) == |cs| - 1
    ensures FirstOrdered(ids + [x], cs)
  {
    var ids' := ids + [x];
    forall i | 0 <= i < |ids| ensures FirstAssign(cs, ids'[i]) < |cs| - 1 {
      assert ids'[i] == ids[i];
      FirstAssignEarly(cs, ids[i]);
    }
    forall i, j | 0 <= i < j < |ids'| ensures FirstAssign(cs, ids'[i]) < FirstAssign(cs, ids'[j]) {
      if j < |ids| {
        assert ids'[i] == ids[i] && ids'[j] == ids[j];
      }
    }
  }

  /** An id first assigned before the last offer is first assigned at the same place with it. */
  lemma FirstAssignEarly(cs: seq<Channel>, id: string)
    requires |cs| > 0 && FirstAssign(cs[..|cs| - 1], id) < |cs| - 1
    ensures FirstAssign(cs, id) == FirstAssign(cs[..|cs| - 1], id)
  {
  }

  /** One more offer appends its id to the keys exactly when it has names and the id is new. */
  lemma CollectIdsSnoc(cs: seq<Channel>)
    requires |cs| > 0
    ensures Ids(Collect(cs)) ==
      if Assigns(cs[|cs| - 1], cs[|cs| - 1].id) && cs[|cs| - 1].id !in Ids(Collect(cs[..|cs| - 1]))
      then Ids(Collect(cs[..|cs| - 1])) + [cs[|cs| - 1].id]
      else Ids(Collect(cs[..|cs| - 1]))
  {
    CollectSnoc(cs);
  }

  /**
   * Dict order is the order of first assignment: a key is placed when the
   * first offer with names for it is seen, and a later offer with the same
   * id replaces the value without moving the key.
   */
  lemma {:induction false} CollectOrder(cs: seq<Channel>)
    ensures FirstOrdered(Ids(Collect(cs)), cs)
    decreases |cs|
  {
    if |cs| > 0 {
      var cs' := cs[..|cs| - 1];
      var c := cs[|cs| - 1];
      var ids' := Ids(Collect(cs'));
      CollectOrder(cs');
      FirstOrderedSnoc(ids', cs);
      CollectIdsSnoc(cs);
      if Assigns(c, c.id) && c.id !in ids' {
        CollectAbsent(cs', c.id);
        assert FirstAssign(cs', c.id) == |cs'|;
        FirstOrderedAppend(ids', cs, c.id);
      }
    }
  }

  /**
   * In terms of the guide text: a parsed id's names are the cleaned display
   * names of the last channel element with that id and at least one display
   * name; later elements with that id have none.
   */
  lemma ParsedChannelSource(xml: string, id: string) returns (k: nat)
    requires Lookup(ParseEpgChannels(xml), id).Some?
    ensures k < |ChannelBlocks(xml)| && ChannelBlocks(xml)[k].id == id
    ensures Lookup(ParseEpgChannels(xml), id) == Some(Aliases(ChannelBlocks(xml)[k].inner))
    ensures forall j :: k < j < |ChannelBlocks(xml)| && ChannelBlocks(xml)[j].id == id ==> |Aliases(ChannelBlocks(xml)[j].inner)| == 0
  {
    var bs := ChannelBlocks(xml);
    var cs := Offers(bs);
    k := CollectLatest(cs, id);
    assert forall j :: k < j < |bs| ==> cs[j] == Channel(bs[j].id, Aliases(bs[j].inner));
  }

  /** In terms of the guide text: an id is parsed exactly when some channel element with that id has a display name. */
  lemma ParsedIffNamed(xml: string, id: string)
    ensures id in Ids(ParseEpgChannels(xml)) <==>
      exists k :: 0 <= k < |ChannelBlocks(xml)| && ChannelBlocks(xml)[k].id == id && |Aliases(ChannelBlocks(xml)[k].inner)| > 0
  {
    var bs := ChannelBlocks(xml);
    var cs := Offers(bs);
    CollectAbsent(cs, id);
    assert forall k :: 0 <= k < |bs| ==> cs[k] == Channel(bs[k].id, Aliases(bs[k].inner));
  }

  /** Every parsed id is the id of some channel element of the guide. */
  lemma ParsedIdsAreChannelIds(xml: string)
    ensures forall id :: id in Ids(ParseEpgChannels(xml)) ==> id in ChannelIds(xml)
  {
    forall id | id in Ids(ParseEpgChannels(xml)) ensures id in ChannelIds(xml) {
      ParsedIffNamed(xml, id);
      var k :| 0 <= k < |ChannelBlocks(xml)| && ChannelBlocks(xml)[k].id == id && |Aliases(ChannelBlocks(xml)[k].inner)| > 0;
      BlockIdListed(ChannelBlocks(xml), k);
    }
  }
}

=== FILE: guide_blocks.dfy ===
/**
 * The regular expressions `auto_match.py` runs over the XMLTV guide, each
 * modelled as a search for literal delimiters. For every pattern a ghost
 * `…Shape` predicate says where the pattern CAN match; the matcher `…At`
 * returns the match the regex engine picks (lazy groups take the shortest
 * text) and `None` exactly when no shape exists.
 */
module GuideBlocks {
  import opened Wrappers
  import opened Text
  import opened Matches
  import Seqs

  // ---------------------------------------------------------------------
  // `<channel id="(.*?)">(.*?)</channel>` with DOTALL
  // ---------------------------------------------------------------------

  const ChannelOpen := "<channel id=\""
  const ChannelMid := "\">"
  const ChannelClose := "</channel>"

  /** One channel element of the guide: where it starts and ends, and the id and body the pattern captures. */
  datatype ChannelBlock = ChannelBlock(start: nat, id: string, inner: string, end: nat)

  /** The channel element as it is written back: `<channel id="{id}">{inner}</channel>`. */
  function ChannelText(id: string, inner: string): string {
    ChannelOpen + id + ChannelMid + inner + ChannelClose
  }

  /** The channel pattern can match at `p` with its `">` at `k` and its `</channel>` at `m`. */
  ghost predicate ChannelShape(s: string, p: nat, k: nat, m: nat) {
    && OccursAt(s, ChannelOpen, p)
    && p + |ChannelOpen| <= k && OccursAt(s, ChannelMid, k)
    && k + |ChannelMid| <= m && OccursAt(s, ChannelClose, m)
  }

  /**
   * What the channel match at `p` must be: absent exactly when no shape
   * exists; otherwise both lazy groups are as short as possible and the
   * element is the text of the guide between its ends.
   */
  ghost predicate IsChannelMatch(s: string, p: nat, r: Option<ChannelBlock>) {
    && (r.None? <==> forall k: nat, m: nat :: !ChannelShape(s, p, k, m))
    && (r.Some? ==>
          && r.value.start == p && p + |ChannelText(r.value.id, r.value.inner)| == r.value.end <= |s|
          && ChannelShape(s, p, p + |ChannelOpen| + |r.value.id|, r.value.end - |ChannelClose|)
          && (forall k: nat, m: nat :: ChannelShape(s, p, k, m) ==>
                p + |ChannelOpen| + |r.value.id| <= k && r.value.end - |ChannelClose| <= m)
          && s[p..r.value.end] == ChannelText(r.value.id, r.value.inner))
  }

  /** The match of the channel pattern starting at `p`, if any. */
  function ChannelAt(s: string, p: nat): (r: Option<ChannelBlock>)
    ensures IsChannelMatch(s, p, r)
  {
    if !OccursAt(s, ChannelOpen, p) then
      assert IsChannelMatch(s, p, None);
      None
    else
      match Find(s, ChannelMid, p + |ChannelOpen|)
      case None =>
        ChannelNoMid(s, p);
        None
      case Some(k) =>
        match Find(s, ChannelClose, k + |ChannelMid|)
        case None =>
          ChannelNoClose(s, p, k);
          None
        case Some(m) =>
          ChannelFound(s, p, k, m);
          Some(ChannelMatch(s, p, k, m))
  }

  /** Without a `">` after the opening there is no channel element at `p`. */
  lemma ChannelNoMid(s: string, p: nat)
    requires forall i: nat :: p + |ChannelOpen| <= i ==> !OccursAt(s, ChannelMid, i)
    ensures IsChannelMatch(s, p, None)
  {
  }

  /** Without a `</channel>` after the first `">` there is none after any later one either. */
  lemma ChannelNoClose(s: string, p: nat, k: nat)
    requires Absent(s, ChannelMid, p + |ChannelOpen|, k)
    requires forall i: nat :: k + |ChannelMid| <= i ==> !OccursAt(s, ChannelClose, i)
    ensures IsChannelMatch(s, p, None)
  {
  }

  /** The element the pattern reports when its `">` is at `k` and its `</channel>` at `m`. */
  function ChannelMatch(s: string, p: nat, k: nat, m: nat): ChannelBlock
    requires p + |ChannelOpen| <= k && k + |ChannelMid| <= m <= |s|
  {
    ChannelBlock(p, s[p + |ChannelOpen|..k], s[k + |ChannelMid|..m], m + |ChannelClose|)
  }

  /** The first `">` after the opening and the first `</channel>` after it delimit the shortest element, whose text is the guide's. */
  lemma ChannelFound(s: string, p: nat, k: nat, m: nat)
    requires ChannelShape(s, p, k, m)
    requires Absent(s, ChannelMid, p + |ChannelOpen|, k)
    requires Absent(s, ChannelClose, k + |ChannelMid|, m)
    ensures m <= |s|
    ensures IsChannelMatch(s, p, Some(ChannelMatch(s, p, k, m)))
  {
    var e := m + |ChannelClose|;
    SliceSplit(s, p, m, e);
    SliceSplit(s, p, k + |ChannelMid|, m);
    SliceSplit(s, p, k, k + |ChannelMid|);
    SliceSplit(s, p, p + |ChannelOpen|, k);
  }

  /** The channel pattern as `FindAll` uses it: where the element starting at each position ends. */
  function ChannelPattern(s: string): nat -> Option<nat> {
    p => if ChannelAt(s, p).Some? then Some(ChannelAt(s, p).value.end) else None
  }

  lemma ChannelPatternIsPattern(s: string)
    ensures Pattern(|s|, ChannelPattern(s))
  {
  }

  /** `re.findall` of the channel pattern over the guide: its matches, in document order and without overlap. */
  function ChannelBlocks(s: string): (bs: seq<ChannelBlock>)
    ensures forall i :: 0 <= i < |bs| ==> ChannelAt(s, bs[i].start) == Some(bs[i])
    ensures forall i :: 0 <= i < |bs| ==> bs[i].start < bs[i].end <= |s|
    ensures forall i, j :: 0 <= i < j < |bs| ==> bs[i].end <= bs[j].start
  {
    ChannelPatternIsPattern(s);
    var spans := FindAll(|s|, ChannelPattern(s), 0);
    seq(|spans|, i requires 0 <= i < |spans| => ChannelAt(s, spans[i].start).value)
  }

  /** A reported channel element is the exact text of the guide it was found at. */
  lemma ChannelBlockVerbatim(s: string, b: ChannelBlock)
    requires b in ChannelBlocks(s)
    ensures b.start < b.end <= |s| && s[b.start..b.end] == ChannelText(b.id, b.inner)
  {
    var bs := ChannelBlocks(s);
    var i := Seqs.IndexOf(bs, b);
    assert ChannelAt(s, b.start) == Some(b);
  }

  /** The ids the channel elements `bs` carry. */
  function BlockIds(bs: seq<ChannelBlock>): set<string> {
    set i | 0 <= i < |bs| :: bs[i].id
  }

  /** Where an id of `bs` comes from. */
  lemma BlockIdIndex(bs: seq<ChannelBlock>, id: string) returns (i: nat)
    requires id in BlockIds(bs)
    ensures i < |bs| && bs[i].id == id
  {
    i :| i < |bs| && bs[i].id == id;
  }

  lemma BlockIdListed(bs: seq<ChannelBlock>, i: nat)
    requires i < |bs|
    ensures bs[i].id in BlockIds(bs)
  {
  }

  /** The ids of all channel elements of the guide. */
  function ChannelIds(s: string): set<string> {
    BlockIds(ChannelBlocks(s))
  }

  /**
   * Nothing is missed: every position where the channel pattern matches is
   * the start of a reported element or lies inside one.
   */
  lemma ChannelBlocksCover(s: string, q: nat) returns (i: nat)
    requires ChannelAt(s, q).Some?
    ensures i < |ChannelBlocks(s)| && ChannelBlocks(s)[i].start <= q < ChannelBlocks(s)[i].end
  {
    ChannelPatternIsPattern(s);
    i := FindAllCovers(|s|, ChannelPattern(s), 0, q);
  }

  // ---------------------------------------------------------------------
  // `<display-name[^>]*>(.*?)</display-name>` without DOTALL
  // ---------------------------------------------------------------------

  const NameOpen := "<display-name"
  const NameClose := "</display-name>"

  /** One display-name element: its attributes (the `[^>]*` part) and the text the pattern captures. */
  datatype DisplayName = DisplayName(start: nat, attrs: string, text: string, end: nat)

  /**
   * The display-name pattern can match at `p` with its `>` at `j` and its
   * closing tag at `m`: `[^>]*` crosses no `>`, and the lazy `.*?` crosses
   * no newline, since `.` does not match one without DOTALL.
   */
  ghost predicate NameShape(s: string, p: nat, j: nat, m: nat) {
    && OccursAt(s, NameOpen, p)
    && p + |NameOpen| <= j && OccursAt(s, ">", j) && Absent(s, ">", p + |NameOpen|, j)
    && j + 1 <= m && OccursAt(s, NameClose, m) && Absent(s, "\n", j + 1, m)
  }

  /**
   * What the display-name match at `p` must be: absent exactly when no shape
   * exists; otherwise the shape whose `>` is the first one and whose closing
   * tag is the nearest, with the element being the guide's text.
   */
  ghost predicate IsNameMatch(s: string, p: nat, r: Option<DisplayName>) {
    && (r.None? <==> forall j: nat, m: nat :: !NameShape(s, p, j, m))
    && (r.Some? ==>
          && r.value.start == p && p < r.value.end <= |s|
          && |r.value.attrs| + |r.value.text| + |NameOpen| + 1 + |NameClose| == r.value.end - p
          && NameShape(s, p, p + |NameOpen| + |r.value.attrs|, r.value.end - |NameClose|)
          && (forall j: nat, m: nat :: NameShape(s, p, j, m) ==>
                j == p + |NameOpen| + |r.value.attrs| && r.value.end - |NameClose| <= m)
          && s[p..r.value.end] == NameOpen + r.value.attrs + ">" + r.value.text + NameClose)
  }

  /** The match of the display-name pattern starting at `p`, if any: the shape whose text is shortest. */
  function DisplayNameAt(s: string, p: nat): (r: Option<DisplayName>)
    ensures IsNameMatch(s, p, r)
  {
    if !OccursAt(s, NameOpen, p) then
      assert IsNameMatch(s, p, None);
      None
    else
      match Find(s, ">", p + |NameOpen|)
      case None =>
        NameNoGt(s, p);
        None
      case Some(j) =>
        NameGtUnique(s, p, j);
        match Find(s, NameClose, j + 1)
        case None =>
          NameNoClose(s, p, j);
          None
        case Some(m) =>
          if Absent(s, "\n", j + 1, m) then
            NameFound(s, p, j, m);
            Some(NameMatch(s, p, j, m))
          else
            NameNewline(s, p, j, m);
            None
  }

  lemma NameNoGt(s: string, p: nat)
    requires forall i: nat :: p + |NameOpen| <= i ==> !OccursAt(s, ">", i)
    ensures IsNameMatch(s, p, None)
  {
  }

  lemma NameNoClose(s: string, p: nat, j: nat)
    requires forall j': nat, m: nat :: NameShape(s, p, j', m) ==> j' == j
    requires forall i: nat :: j + 1 <= i ==> !OccursAt(s, NameClose, i)
    ensures IsNameMatch(s, p, None)
  {
  }

  /** `[^>]*>` stops at the first `>`, so every shape at `p` has its `>` there. */
  lemma NameGtUnique(s: string, p: nat, j: nat)
    requires p + |NameOpen| <= j && OccursAt(s, ">", j) && Absent(s, ">", p + |NameOpen|, j)
    ensures forall j': nat, m: nat :: NameShape(s, p, j', m) ==> j' == j
  {
  }

  /** A newline before the first closing tag rules out every closing tag. */
  lemma NameNewline(s: string, p: nat, j: nat, m: nat)
    requires forall j': nat, m': nat :: NameShape(s, p, j', m') ==> j' == j
    requires j + 1 <= m && Absent(s, NameClose, j + 1, m) && !Absent(s, "\n", j + 1, m)
    ensures IsNameMatch(s, p, None)
  {
  }

  /** The element the pattern reports when its `>` is at `j` and its closing tag at `m`. */
  function NameMatch(s: string, p: nat, j: nat, m: nat): DisplayName
    requires p + |NameOpen| <= j < m <= |s|
  {
    DisplayName(p, s[p + |NameOpen|..j], s[j + 1..m], m + |NameClose|)
  }

  /** The first `>` and the first closing tag after it, with no newline between, give the shortest match. */
  lemma NameFound(s: string, p: nat, j: nat, m: nat)
    requires NameShape(s, p, j, m)
    requires forall j': nat, m': nat :: NameShape(s, p, j', m') ==> j' == j
    requires Absent(s, NameClose, j + 1, m)
    ensures m <= |s|
    ensures IsNameMatch(s, p, Some(NameMatch(s, p, j, m)))
  {
    var r := NameMatch(s, p, j, m);
    NameText(s, p, j, m);
    assert p + |NameOpen| + |r.attrs| == j && r.end - |NameClose| == m;
    assert NameShape(s, p, j, m);
  }

  lemma NameText(s: string, p: nat, j: nat, m: nat)
    requires p + |NameOpen| <= j < m && m + |NameClose| <= |s|
    requires OccursAt(s, NameOpen, p) && OccursAt(s, ">", j) && OccursAt(s, NameClose, m)
    ensures s[p..m + |NameClose|] == NameOpen + s[p + |NameOpen|..j] + ">" + s[j + 1..m] + NameClose
  {
    SliceSplit(s, p, m, m + |NameClose|);
    SliceSplit(s, p, j + 1, m);
    SliceSplit(s, p, j, j + 1);
    SliceSplit(s, p, p + |NameOpen|, j);
  }

  /** The display-name pattern as `FindAll` uses it. */
  function NamePattern(s: string): nat -> Option<nat> {
    p => if DisplayNameAt(s, p).Some? then Some(DisplayNameAt(s, p).value.end) else None
  }

  lemma NamePatternIsPattern(s: string)
    ensures Pattern(|s|, NamePattern(s))
  {
  }

  /** `re.findall` of the display-name pattern over a channel's body, in document order and without overlap. */
  function DisplayNames(s: string): (ns: seq<DisplayName>)
    ensures forall i :: 0 <= i < |ns| ==> DisplayNameAt(s, ns[i].start) == Some(ns[i])
    ensures forall i, j :: 0 <= i < j < |ns| ==> ns[i].end <= ns[j].start
  {
    NamePatternIsPattern(s);
    var spans := FindAll(|s|, NamePattern(s), 0);
    seq(|spans|, i requires 0 <= i < |spans| => DisplayNameAt(s, spans[i].start).value)
  }

  /** Every position where the display-name pattern matches is covered by a reported element. */
  lemma DisplayNamesCover(s: string, q: nat) returns (i: nat)
    requires DisplayNameAt(s, q).Some?
    ensures i < |DisplayNames(s)| && DisplayNames(s)[i].start <= q < DisplayNames(s)[i].end
  {
    NamePatternIsPattern(s);
    i := FindAllCovers(|s|, NamePattern(s), 0, q);
  }

  // ---------------------------------------------------------------------
  // `<programme(.*?)</programme>` with DOTALL
  // ---------------------------------------------------------------------

  const ProgrammeOpen := "<programme"
  const ProgrammeClose := "</programme>"

  /** One programme element: everything between `<programme` and `</programme>` is its captured body. */
  datatype ProgrammeBlock = ProgrammeBlock(start: nat, body: string, end: nat)

  /** The programme element as it is written back: `<programme{body}</programme>`. */
  function ProgrammeText(body: string): string {
    ProgrammeOpen + body + ProgrammeClose
  }

  ghost predicate ProgrammeShape(s: string, p: nat, m: nat) {
    OccursAt(s, ProgrammeOpen, p) && p + |ProgrammeOpen| <= m && OccursAt(s, ProgrammeClose, m)
  }

  /** The match of the programme pattern starting at `p`, if any: the shape whose body is shortest. */
  function ProgrammeAt(s: string, p: nat): (r: Option<ProgrammeBlock>)
    ensures r.None? <==> forall m: nat :: !ProgrammeShape(s, p, m)
    ensures r.Some? ==> r.value.start == p && p + |ProgrammeText(r.value.body)| == r.value.end <= |s|
    ensures r.Some? ==> ProgrammeShape(s, p, r.value.end - |ProgrammeClose|)
    ensures r.Some? ==> forall m: nat :: ProgrammeShape(s, p, m) ==> r.value.end - |ProgrammeClose| <= m
    ensures r.Some? ==> s[p..r.value.end] == ProgrammeText(r.value.body)
  {
    if !OccursAt(s, ProgrammeOpen, p) then None
    else
      match Find(s, ProgrammeClose, p + |ProgrammeOpen|)
      case None => None
      case Some(m) =>
        ProgrammeFound(s, p, m);
        Some(ProgrammeBlock(p, s[p + |ProgrammeOpen|..m], m + |ProgrammeClose|))
  }

  lemma ProgrammeFound(s: string, p: nat, m: nat)
    requires ProgrammeShape(s, p, m)
    ensures ProgrammeShape(s, p, m)
    ensures s[p..m + |ProgrammeClose|] == ProgrammeText(s[p + |ProgrammeOpen|..m])
  {
    SliceSplit(s, p, m, m + |ProgrammeClose|);
    SliceSplit(s, p, p + |ProgrammeOpen|, m);
  }

  /** The programme pattern as `FindAll` uses it. */
  function ProgrammePattern(s: string): nat -> Option<nat> {
    p => if ProgrammeAt(s, p).Some? then Some(ProgrammeAt(s, p).value.end) else None
  }

  lemma ProgrammePatternIsPattern(s: string)
    ensures Pattern(|s|, ProgrammePattern(s))
  {
  }

  /** `re.findall` of the programme pattern over the guide, in document order and without overlap. */
  function ProgrammeBlocks(s: string): (ps: seq<ProgrammeBlock>)
    ensures forall i :: 0 <= i < |ps| ==> ProgrammeAt(s, ps[i].start) == Some(ps[i])
    ensures forall i :: 0 <= i < |ps| ==> ps[i].start < ps[i].end <= |s|
    ensures forall i, j :: 0 <= i < j < |ps| ==> ps[i].end <= ps[j].start
  {
    ProgrammePatternIsPattern(s);
    var spans := FindAll(|s|, ProgrammePattern(s), 0);
    seq(|spans|, i requires 0 <= i < |spans| => ProgrammeAt(s, spans[i].start).value)
  }

  /** A reported programme element is the exact text of the guide it was found at. */
  lemma ProgrammeBlockVerbatim(s: string, b: ProgrammeBlock)
    requires b in ProgrammeBlocks(s)
    ensures b.start < b.end <= |s| && s[b.start..b.end] == ProgrammeText(b.body)
  {
    var ps := ProgrammeBlocks(s);
    var i := Seqs.IndexOf(ps, b);
    assert ProgrammeAt(s, b.start) == Some(b);
  }

  /** Every position where the programme pattern matches is covered by a reported element. */
  lemma ProgrammeBlocksCover(s: string, q: nat) returns (i: nat)
    requires ProgrammeAt(s, q).Some?
    ensures i < |ProgrammeBlocks(s)| && ProgrammeBlocks(s)[i].start <= q < ProgrammeBlocks(s)[i].end
  {
    ProgrammePatternIsPattern(s);
    i := FindAllCovers(|s|, ProgrammePattern(s), 0, q);
  }

  // ---------------------------------------------------------------------
  // `re.search(r'channel="(.*?)"', block)` without DOTALL
  // ---------------------------------------------------------------------

  const AttrOpen := "channel=\""

  /** The attribute pattern can match at `p` with its closing quote at `q`, no newline in between. */
  ghost predicate AttrShape(s: string, p: nat, q: nat) {
    && OccursAt(s, AttrOpen, p)
    && p + |AttrOpen| <= q && OccursAt(s, "\"", q) && Absent(s, "\n", p + |AttrOpen|, q)
  }

  /** The value of the attribute pattern's match at `p`, if any: the shortest one. */
  function AttrAt(s: string, p: nat): (r: Option<string>)
    ensures r.None? <==> forall q: nat :: !AttrShape(s, p, q)
    ensures r.Some? ==> AttrShape(s, p, p + |AttrOpen| + |r.value|)
    ensures r.Some? ==> r.value == s[p + |AttrOpen|..p + |AttrOpen| + |r.value|]
    ensures r.Some? ==> forall q: nat :: AttrShape(s, p, q) ==> p + |AttrOpen| + |r.value| <= q
  {
    if !OccursAt(s, AttrOpen, p) then None
    else
      match Find(s, "\"", p + |AttrOpen|)
      case None => None
      case Some(q) =>
        if Absent(s, "\n", p + |AttrOpen|, q) then
          assert AttrShape(s, p, q);
          Some(s[p + |AttrOpen|..q])
        else
          None
  }

  /** The leftmost position at or after `from` where the attribute pattern matches. */
  function SearchAttr(s: string, from: nat): (r: Option<nat>)
    ensures r.Some? ==> from <= r.value && AttrAt(s, r.value).Some?
    ensures r.Some? ==> forall p: nat :: from <= p < r.value ==> AttrAt(s, p).None?
    ensures r.None? ==> forall p: nat :: from <= p ==> AttrAt(s, p).None?
    decreases |s| - from
  {
    if from >= |s| then None
    else if AttrAt(s, from).Some? then Some(from)
    else SearchAttr(s, from + 1)
  }

  /** `re.search` for the attribute: the value of the leftmost match, or `None` when the block has none. */
  function ChannelAttr(block: string): Option<string> {
    match SearchAttr(block, 0)
    case Some(p) => AttrAt(block, p)
    case None => None
  }

  // ---------------------------------------------------------------------
  // `re.search(r"^(.*?<tv[^>]*>)", epg_xml, re.DOTALL)`
  // ---------------------------------------------------------------------

  const TvOpen := "<tv"

  /** The header pattern can match with its `<tv` at `i` and its `>` at `j`; `^` anchors it at the start. */
  ghost predicate HeaderShape(s: string, i: nat, j: nat) {
    && OccursAt(s, TvOpen, i)
    && i + |TvOpen| <= j && OccursAt(s, ">", j) && Absent(s, ">", i + |TvOpen|, j)
  }

  /** Where the header match puts its `<tv` and the `>` that ends the header. */
  datatype HeaderSpan = HeaderSpan(tv: nat, gt: nat)

  /**
   * The header match, if any: the lazy `.*?` takes the first `<tv` that can
   * complete the pattern, and `[^>]*>` then stops at the first `>`.
   */
  function HeaderAt(s: string): (r: Option<HeaderSpan>)
    ensures r.None? <==> forall i: nat, j: nat :: !HeaderShape(s, i, j)
    ensures r.Some? ==> HeaderShape(s, r.value.tv, r.value.gt)
    ensures r.Some? ==> forall i: nat, j: nat :: HeaderShape(s, i, j) ==> r.value.tv <= i && (i == r.value.tv ==> j == r.value.gt)
  {
    match Find(s, TvOpen, 0)
    case None => None
    case Some(i) =>
      match Find(s, ">", i + |TvOpen|)
      case None => None
      case Some(j) =>
        assert HeaderShape(s, i, j);
        Some(HeaderSpan(i, j))
  }
}

=== FILE: matcher.dfy ===
/**
 * `similarity`, `find_best_match` and the matching loop of `main`: each
 * playlist name is scored against every display name of every guide
 * channel, and the best channel is accepted when it reaches the threshold.
 */
module Matcher {
  import opened Wrappers
  import opened Guide
  import Playlist

  /**
   * `str.lower` and `difflib.SequenceMatcher(None, a, b).ratio()`, which the
   * model does not look inside: they are parameters of every operation.
   */
  datatype Similarity = Similarity(lower: string -> string, ratio: (string, string) -> real)

  /** What is relied on about the library: a ratio lies in [0, 1], and a string compared with itself scores 1. */
  ghost predicate Valid(sim: Similarity) {
    && (forall a, b :: 0.0 <= sim.ratio(a, b) <= 1.0)
    && (forall a :: sim.ratio(a, a) == 1.0)
  }

  /** `similarity(a, b)`: the ratio of the two lower-cased strings. */
  function Score(sim: Similarity, a: string, b: string): real {
    sim.ratio(sim.lower(a), sim.lower(b))
  }

  /** `MIN_SIMILARITY`, the acceptance threshold, as the exact rational 41/50. */
  const MinSimilarity: real := 0.82

  // ---------------------------------------------------------------------
  // The nested loop of `find_best_match`
  // ---------------------------------------------------------------------

  /** One iteration of the nested loop: a channel id and one of its display names. */
  datatype Pair = Pair(id: string, alias: string)

  /** The display names of one channel, each paired with its id. */
  function ChannelPairs(c: Channel): seq<Pair> {
    seq(|c.aliases|, k requires 0 <= k < |c.aliases| => Pair(c.id, c.aliases[k]))
  }

  /** Every (id, display name) pair in the order the nested loop visits them: dict order, then name order. */
  function Pairs(g: seq<Channel>): (ps: seq<Pair>)
    decreases |g|
  {
    if |g| == 0 then [] else ChannelPairs(g[0]) + Pairs(g[1..])
  }

  /** The nested loop visits exactly the display names of the guide's channels, each with its own channel's id. */
  lemma {:induction false} PairsOfGuide(g: seq<Channel>, id: string, alias: string)
    ensures Pair(id, alias) in Pairs(g) <==> exists i :: 0 <= i < |g| && g[i].id == id && alias in g[i].aliases
    decreases |g|
  {
    if |g| > 0 {
      PairsOfGuide(g[1..], id, alias);
      var ps := ChannelPairs(g[0]);
      assert Pair(id, alias) in ps <==> g[0].id == id && alias in g[0].aliases by {
        if Pair(id, alias) in ps {
          var k :| 0 <= k < |ps| && ps[k] == Pair(id, alias);
          assert g[0].aliases[k] == alias;
        }
        if g[0].id == id && alias in g[0].aliases {
          var k :| 0 <= k < |g[0].aliases| && g[0].aliases[k] == alias;
          assert ps[k] == Pair(id, alias);
        }
      }
      if exists i :: 0 <= i < |g| && g[i].id == id && alias in g[i].aliases {
        var i :| 0 <= i < |g| && g[i].id == id && alias in g[i].aliases;
        if i > 0 {
          assert g[1..][i - 1] == g[i];
        }
      }
      if exists i :: 0 <= i < |g[1..]| && g[1..][i].id == id && alias in g[1..][i].aliases {
        var i :| 0 <= i < |g[1..]| && g[1..][i].id == id && alias in g[1..][i].aliases;
        assert g[i + 1] == g[1..][i];
      }
    }
  }

  /** The pair `(best_id, best_score)` the loop carries and `find_best_match` returns. */
  datatype Best = Best(id: Option<string>, score: real)

  /** One iteration: a strictly higher score takes over; an equal score does not. */
  function Consider(sim: Similarity, name: string, b: Best, p: Pair): (r: Best)
    ensures b.score <= r.score && Score(sim, name, p.alias) <= r.score
    ensures r == b || (r.id == Some(p.id) && b.score < r.score)
  {
    var s := Score(sim, name, p.alias);
    if s > b.score then Best(Some(p.id), s) else b
  }

  /**
   * The running maximum after visiting `ps`, starting from `(None, 0.0)`:
   * no visited pair scores above it, it never drops below 0.0, and an id is
   * held exactly when some pair scored above 0.0.
   */
  function Running(sim: Similarity, name: string, ps: seq<Pair>): (b: Best)
    ensures 0.0 <= b.score
    ensures forall k :: 0 <= k < |ps| ==> Score(sim, name, ps[k].alias) <= b.score
    ensures b.id.Some? <==> 0.0 < b.score
    decreases |ps|
  {
    if |ps| == 0 then Best(None, 0.0)
    else Consider(sim, name, Running(sim, name, ps[..|ps| - 1]), ps[|ps| - 1])
  }

  /**
   * Ties go to the first pair: the held id belongs to the first visited
   * pair that reaches the held score, and every earlier pair scores strictly
   * less.
   */
  lemma {:induction false} RunningWitness(sim: Similarity, name: string, ps: seq<Pair>) returns (k: nat)
    requires Running(sim, name, ps).id.Some?
    ensures k < |ps|
    ensures Running(sim, name, ps) == Best(Some(ps[k].id), Score(sim, name, ps[k].alias))
    ensures forall j :: 0 <= j < k ==> Score(sim, name, ps[j].alias) < Running(sim, name, ps).score
    decreases |ps|
  {
    var ps' := ps[..|ps| - 1];
    var prev := Running(sim, name, ps');
    var last := Score(sim, name, ps[|ps| - 1].alias);
    if last > prev.score {
      k := |ps| - 1;
      assert forall j :: 0 <= j < k ==> ps[j] == ps'[j];
    } else {
      k := RunningWitness(sim, name, ps');
      assert ps[k] == ps'[k];
      assert forall j :: 0 <= j < k ==> ps[j] == ps'[j];
    }
  }

  /**
   * `find_best_match`: the running maximum over every pair, with its id kept
   * only when the score reaches the threshold. The score is returned either
   * way.
   */
  function FindBestMatch(sim: Similarity, name: string, g: seq<Channel>): (r: Best)
    ensures forall i, k :: 0 <= i < |g| && 0 <= k < |g[i].aliases| ==> Score(sim, name, g[i].aliases[k]) <= r.score
    ensures r.id.Some? <==> MinSimilarity <= r.score
    ensures r.id.Some? ==> r.id.value in Ids(g)
    ensures |g| == 0 ==> r == Best(None, 0.0)
  {
    var b := Running(sim, name, Pairs(g));
    PairsBound(sim, name, g, b);
    if b.id.Some? then
      BestIsListed(sim, name, g);
      if b.score >= MinSimilarity then b else Best(None, b.score)
    else
      Best(None, b.score)
  }

  /** A bound on every visited pair bounds every display name of every channel. */
  lemma PairsBound(sim: Similarity, name: string, g: seq<Channel>, b: Best)
    requires forall k :: 0 <= k < |Pairs(g)| ==> Score(sim, name, Pairs(g)[k].alias) <= b.score
    ensures forall i, k :: 0 <= i < |g| && 0 <= k < |g[i].aliases| ==> Score(sim, name, g[i].aliases[k]) <= b.score
  {
    forall i, k | 0 <= i < |g| && 0 <= k < |g[i].aliases|
      ensures Score(sim, name, g[i].aliases[k]) <= b.score
    {
      PairsOfGuide(g, g[i].id, g[i].aliases[k]);
      var m :| 0 <= m < |Pairs(g)| && Pairs(g)[m] == Pair(g[i].id, g[i].aliases[k]);
    }
  }

  /** The held id is the id of a channel of the guide. */
  lemma BestIsListed(sim: Similarity, name: string, g: seq<Channel>)
    requires Running(sim, name, Pairs(g)).id.Some?
    ensures Running(sim, name, Pairs(g)).id.value in Ids(g)
  {
    var ps := Pairs(g);
    var k := RunningWitness(sim, name, ps);
    PairsOfGuide(g, ps[k].id, ps[k].alias);
    var i :| 0 <= i < |g| && g[i].id == ps[k].id && ps[k].alias in g[i].aliases;
    assert Ids(g)[i] == g[i].id;
  }

  /**
   * With a valid similarity and at least one display name in the guide,
   * the returned score is the maximum over all display names: it is reached
   * by one of them and, by the contract of `FindBestMatch`, exceeded by none.
   */
  lemma BestScoreIsMax(sim: Similarity, name: string, g: seq<Channel>, i0: nat, k0: nat) returns (i: nat, k: nat)
    requires Valid(sim)
    requires i0 < |g| && k0 < |g[i0].aliases|
    ensures i < |g| && k < |g[i].aliases|
    ensures Score(sim, name, g[i].aliases[k]) == FindBestMatch(sim, name, g).score
  {
    var ps := Pairs(g);
    var b := Running(sim, name, ps);
    if b.id.Some? {
      var m := RunningWitness(sim, name, ps);
      PairsOfGuide(g, ps[m].id, ps[m].alias);
      assert ps[m] in ps;
      i :| 0 <= i < |g| && g[i].id == ps[m].id && ps[m].alias in g[i].aliases;
      k :| 0 <= k < |g[i].aliases| && g[i].aliases[k] == ps[m].alias;
    } else {
      i, k := i0, k0;
    }
  }

  /**
   * Ties go to the first pair in visit order: when an id is returned, it is
   * the id of the first visited pair reaching the returned score, and every
   * earlier pair scores strictly less.
   */
  lemma FirstToReachWins(sim: Similarity, name: string, g: seq<Channel>) returns (m: nat)
    requires FindBestMatch(sim, name, g).id.Some?
    ensures m < |Pairs(g)|
    ensures FindBestMatch(sim, name, g) == Best(Some(Pairs(g)[m].id), Score(sim, name, Pairs(g)[m].alias))
    ensures forall j :: 0 <= j < m ==> Score(sim, name, Pairs(g)[j].alias) < FindBestMatch(sim, name, g).score
  {
    m := RunningWitness(sim, name, Pairs(g));
  }

  /**
   * A display name equal to the playlist name once both are lower-cased
   * scores 1, so the returned score is 1.0 and an id is returned.
   */
  lemma ExactMatchAccepted(sim: Similarity, name: string, g: seq<Channel>, i: nat, k: nat)
    requires Valid(sim)
    requires i < |g| && k < |g[i].aliases|
    requires sim.lower(g[i].aliases[k]) == sim.lower(name)
    ensures FindBestMatch(sim, name, g).score == 1.0
    ensures FindBestMatch(sim, name, g).id.Some?
  {
    var i', k' := BestScoreIsMax(sim, name, g, i, k);
    assert Score(sim, name, g[i].aliases[k]) == 1.0;
  }

  // ---------------------------------------------------------------------
  // The matching loop of `main`
  // ---------------------------------------------------------------------

  /** `if cid:` — a match was returned and its id is not the empty string, which Python treats as false. */
  predicate Accepted(sim: Similarity, name: string, g: seq<Channel>) {
    FindBestMatch(sim, name, g).id.Some? && FindBestMatch(sim, name, g).id.value != ""
  }

  /**
   * The loop that builds `mapping` and `used_ids`: every playlist name with
   * an accepted match is mapped to that match's id, and `used_ids` collects
   * exactly the mapped ids.
   */
  method MatchAll(sim: Similarity, entries: seq<Playlist.Entry>, g: seq<Channel>)
    returns (mapping: map<string, string>, used: set<string>)
    ensures used == mapping.Values
    ensures "" !in used
    ensures forall n :: n in mapping ==> exists j :: 0 <= j < |entries| && entries[j].name == n
    ensures forall j :: 0 <= j < |entries| ==> (entries[j].name in mapping <==> Accepted(sim, entries[j].name, g))
    ensures forall n :: n in mapping ==> FindBestMatch(sim, n, g).id == Some(mapping[n])
  {
    mapping := map[];
    used := {};
    var i := 0;
    while i < |entries|
      invariant 0 <= i <= |entries|
      invariant MatchedSoFar(sim, entries, g, i, mapping, used)
    {
      var name := entries[i].name;
      var best := FindBestMatch(sim, name, g);
      MatchStep(sim, entries, g, i, mapping, used);
      if best.id.Some? && best.id.value != "" {
        var cid := best.id.value;
        mapping := mapping[name := cid];
        used := used + {cid};
      }
      i := i + 1;
    }
  }

  /** What the loop has established after the first `i` entries. */
  ghost predicate MatchedSoFar(sim: Similarity, entries: seq<Playlist.Entry>, g: seq<Channel>, i: nat,
                               mapping: map<string, string>, used: set<string>)
    requires i <= |entries|
  {
    && used == mapping.Values
    && "" !in used
    && (forall n :: n in mapping ==> exists j :: 0 <= j < i && entries[j].name == n)
    && (forall j :: 0 <= j < i ==> (entries[j].name in mapping <==> Accepted(sim, entries[j].name, g)))
    && (forall n :: n in mapping ==> Accepted(sim, n, g) && FindBestMatch(sim, n, g).id == Some(mapping[n]))
  }

  /** One turn of the loop keeps `MatchedSoFar`. */
  lemma MatchStep(sim: Similarity, entries: seq<Playlist.Entry>, g: seq<Channel>, i: nat,
                  mapping: map<string, string>, used: set<string>)
    requires i < |entries| && MatchedSoFar(sim, entries, g, i, mapping, used)
    ensures var name := entries[i].name;
      if Accepted(sim, name, g) then
        MatchedSoFar(sim, entries, g, i + 1, mapping[name := FindBestMatch(sim, name, g).id.value],
                     used + {FindBestMatch(sim, name, g).id.value})
      else MatchedSoFar(sim, entries, g, i + 1, mapping, used)
  {
    if Accepted(sim, entries[i].name, g) {
      MatchStepAccepted(sim, entries, g, i, mapping, used);
    }
  }

  lemma MatchStepAccepted(sim: Similarity, entries: seq<Playlist.Entry>, g: seq<Channel>, i: nat,
                          mapping: map<string, string>, used: set<string>)
    requires i < |entries| && MatchedSoFar(sim, entries, g, i, mapping, used)
    requires Accepted(sim, entries[i].name, g)
    ensures var name := entries[i].name;
      var cid := FindBestMatch(sim, name, g).id.value;
      MatchedSoFar(sim, entries, g, i + 1, mapping[name := cid], used + {cid})
  {
    var name := entries[i].name;
    var cid := FindBestMatch(sim, name, g).id.value;
    var m := mapping[name := cid];
    InsertKeepsValues(mapping, used, name, cid);
    KeysStayNames(entries, i, mapping, cid);
    AcceptedNames(sim, entries, g, i, mapping, cid);
    AcceptedIds(sim, g, mapping, name, cid);
  }

  lemma KeysStayNames(entries: seq<Playlist.Entry>, i: nat, mapping: map<string, string>, cid: string)
    requires i < |entries|
    requires forall n :: n in mapping ==> exists j :: 0 <= j < i && entries[j].name == n
    ensures var m := mapping[entries[i].name := cid];
      forall n :: n in m ==> exists j :: 0 <= j < i + 1 && entries[j].name == n
  {
    var m := mapping[entries[i].name := cid];
    forall n | n in m ensures exists j :: 0 <= j < i + 1 && entries[j].name == n {
      if n == entries[i].name {
        assert entries[i].name == n;
      } else {
        var j :| 0 <= j < i && entries[j].name == n;
        assert 0 <= j < i + 1;
      }
    }
  }

  lemma AcceptedNames(sim: Similarity, entries: seq<Playlist.Entry>, g: seq<Channel>, i: nat,
                      mapping: map<string, string>, cid: string)
    requires i < |entries| && Accepted(sim, entries[i].name, g)
    requires forall j :: 0 <= j < i ==> (entries[j].name in mapping <==> Accepted(sim, entries[j].name, g))
    ensures var m := mapping[entries[i].name := cid];
      forall j :: 0 <= j < i + 1 ==> (entries[j].name in m <==> Accepted(sim, entries[j].name, g))
  {
  }

  lemma AcceptedIds(sim: Similarity, g: seq<Channel>, mapping: map<string, string>, name: string, cid: string)
    requires Accepted(sim, name, g) && FindBestMatch(sim, name, g).id == Some(cid)
    requires forall n :: n in mapping ==> Accepted(sim, n, g) && FindBestMatch(sim, n, g).id == Some(mapping[n])
    ensures var m := mapping[name := cid];
      forall n :: n in m ==> Accepted(sim, n, g) && FindBestMatch(sim, n, g).id == Some(m[n])
  {
  }

  /** Recording `k -> v` adds `v` to the values; when `k` is already recorded it is recorded with `v`. */
  lemma InsertKeepsValues(m: map<string, string>, used: set<string>, k: string, v: string)
    requires used == m.Values && "" !in used && v != ""
    requires k in m ==> m[k] == v
    ensures used + {v} == m[k := v].Values && "" !in used + {v}
  {
    if k in m {
      assert m[k := v] == m;
    } else {
      ValuesAfterInsert(m, k, v);
    }
  }

  /** Adding a new key adds its value to the values. */
  lemma ValuesAfterInsert(m: map<string, string>, k: string, v: string)
    requires k !in m
    ensures m[k := v].Values == m.Values + {v}
  {
    var m' := m[k := v];
    forall x | x in m.Values ensures x in m'.Values {
      var k' :| k' in m && m[k'] == x;
      assert k' in m' && m'[k'] == x;
    }
    forall x | x in m'.Values ensures x in m.Values + {v} {
      var k' :| k' in m' && m'[k'] == x;
      if k' != k {
        assert m[k'] == x;
      }
    }
    assert k in m' && m'[k] == v;
  }
}

=== FILE: matches.dfy ===
/**
 * Python's `re.findall` for a pattern that never matches the empty string:
 * the search tries each start position from left to right, and after a
 * match it resumes where that match ended, so matches never overlap and a
 * position inside an earlier match is never tried.
 */
module Matches {
  import opened Wrappers

  /** The text `[start, end)` covered by one match. */
  datatype Span = Span(start: nat, end: nat)

  /**
   * `at` describes a pattern over a text of length `n`: `at(p)` is the end
   * of the pattern's match starting at `p`, if there is one. Every match is
   * nonempty and lies inside the text.
   */
  ghost predicate Pattern(n: nat, at: nat -> Option<nat>) {
    forall p: nat :: at(p).Some? ==> p < at(p).value <= n
  }

  /** The matches `re.findall` reports, searching from `from` on. */
  function FindAll(n: nat, at: nat -> Option<nat>, from: nat): (r: seq<Span>)
    requires from <= n && Pattern(n, at)
    ensures forall i :: 0 <= i < |r| ==> from <= r[i].start && at(r[i].start) == Some(r[i].end)
    ensures forall i, j :: 0 <= i < j < |r| ==> r[i].end <= r[j].start
    decreases n - from
  {
    if from == n then []
    else
      match at(from)
      case Some(e) => [Span(from, e)] + FindAll(n, at, e)
      case None => FindAll(n, at, from + 1)
  }

  /**
   * Nothing is missed: every position at which the pattern matches lies in
   * one of the reported matches, either as its start or inside it.
   */
  lemma {:induction false} FindAllCovers(n: nat, at: nat -> Option<nat>, from: nat, q: nat) returns (i: nat)
    requires from <= n && Pattern(n, at)
    requires from <= q && at(q).Some?
    ensures i < |FindAll(n, at, from)|
    ensures FindAll(n, at, from)[i].start <= q < FindAll(n, at, from)[i].end
    decreases n - from
  {
    match at(from)
    case Some(e) =>
      if q < e {
        i := 0;
      } else {
        var j := FindAllCovers(n, at, e, q);
        i := j + 1;
      }
    case None =>
      i := FindAllCovers(n, at, from + 1, q);
  }
}

=== FILE: pipeline.dfy ===
/**
 * The matching part of `main` without its downloads, prints and file
 * writes: parse both documents, match every playlist name, then project
 * both documents onto the matches.
 */
module Pipeline {
  import opened Wrappers
  import opened Text
  import Playlist
  import GuideBlocks
  import Guide
  import Matcher
  import GuideProjector

  /**
   * `main` from parsing to the two output texts. A parsed name is mapped
   * exactly when the matcher accepts it, and to the id it found; the new
   * playlist is the parsed one with those ids written in, and with ids free
   * of commas and line breaks it parses back to the same entries. The used
   * ids are ids of channel elements of the guide, the filtered guide keeps
   * the channel elements of exactly those ids, so every tvg-id written into
   * the playlist names a kept channel, and every programme it keeps refers
   * to a kept channel.
   */
  method Run(sim: Matcher.Similarity, m3uText: string, epgXml: string)
    returns (newM3u: string, filteredEpg: string, mapping: map<string, string>, used: set<string>)
    ensures used == mapping.Values
    ensures "" !in used
    ensures forall n :: n in mapping ==>
      exists j :: 0 <= j < |Playlist.ParseM3u(m3uText)| && Playlist.ParseM3u(m3uText)[j].name == n
    ensures forall j :: 0 <= j < |Playlist.ParseM3u(m3uText)| ==>
      (Playlist.ParseM3u(m3uText)[j].name in mapping <==>
       Matcher.Accepted(sim, Playlist.ParseM3u(m3uText)[j].name, Guide.ParseEpgChannels(epgXml)))
    ensures forall n :: n in mapping ==>
      Matcher.FindBestMatch(sim, n, Guide.ParseEpgChannels(epgXml)).id == Some(mapping[n])
    ensures newM3u == Playlist.BuildNewM3u(Playlist.ParseM3u(m3uText), mapping)
    ensures forall n :: n in mapping ==> mapping[n] in GuideProjector.KeptIds(epgXml, used)
    ensures (forall n :: n in mapping ==> ',' !in mapping[n] && NoBreak(mapping[n])) ==>
      Playlist.ParseM3u(newM3u) == Playlist.ParseM3u(m3uText)
    ensures used <= GuideBlocks.ChannelIds(epgXml)
    ensures GuideProjector.KeptIds(epgXml, used) == used
    ensures forall p :: p in GuideProjector.KeptProgrammes(epgXml, used) ==>
      GuideBlocks.ChannelAttr(p.body).Some? && GuideBlocks.ChannelAttr(p.body).value in GuideProjector.KeptIds(epgXml, used)
    ensures filteredEpg == GuideProjector.BuildFilteredEpg(epgXml, used)
    ensures filteredEpg + "\n" == Unlines(GuideProjector.Pieces(epgXml, used))
  {
    var entries := Playlist.ParseM3u(m3uText);
    var g := Guide.ParseEpgChannels(epgXml);
    mapping, used := Matcher.MatchAll(sim, entries, g);
    newM3u := Playlist.BuildNewM3u(entries, mapping);
    filteredEpg := GuideProjector.BuildFilteredEpg(epgXml, used);

    RoundTrip(m3uText, mapping);
    UsedAreChannelIds(sim, epgXml, g, mapping, used);
    GuideProjector.KeptIdsAreUsedIds(epgXml, used);
  }

  /** The new playlist parses back to the entries of the old one when no id holds a comma or a line break. */
  lemma RoundTrip(m3uText: string, mapping: map<string, string>)
    ensures (forall n :: n in mapping ==> ',' !in mapping[n] && NoBreak(mapping[n])) ==>
      Playlist.ParseM3u(Playlist.BuildNewM3u(Playlist.ParseM3u(m3uText), mapping)) == Playlist.ParseM3u(m3uText)
  {
    if forall n :: n in mapping ==> ',' !in mapping[n] && NoBreak(mapping[n]) {
      Playlist.ParsedEntriesSingleLine(m3uText);
      Playlist.ParseBuildRoundTrip(Playlist.ParseM3u(m3uText), mapping);
    }
  }

  /** Every id the matcher returns is a parsed id, hence the id of a channel element. */
  lemma UsedAreChannelIds(sim: Matcher.Similarity, epgXml: string, g: seq<Guide.Channel>,
                          mapping: map<string, string>, used: set<string>)
    requires g == Guide.ParseEpgChannels(epgXml)
    requires used == mapping.Values
    requires forall n :: n in mapping ==> Matcher.FindBestMatch(sim, n, g).id == Some(mapping[n])
    ensures used <= GuideBlocks.ChannelIds(epgXml)
  {
    Guide.ParsedIdsAreChannelIds(epgXml);
    forall id | id in used ensures id in GuideBlocks.ChannelIds(epgXml) {
      var n :| n in mapping && mapping[n] == id;
      assert id in Guide.Ids(g);
    }
  }
}

=== FILE: playlist.dfy ===
/**
 * The playlist side of the pipeline: the extended-M3U line scanner
 * (`parse_m3u_channels`) and the serialiser that re-emits the entries
 * annotated with guide ids (`build_new_m3u`).
 *
 * An `#EXTINF` line loosely follows the EXTINF tag of section 4.3.2.1 of
 * RFC 8216: attributes, a comma, then the display name.
 */
module Playlist {
  import opened Wrappers
  import opened Text
  import Seqs

  /** One stream of the playlist: its display name and its URL. */
  datatype Entry = Entry(name: string, url: string)

  /** The scanner's state between lines: the entries emitted so far and the pending-name register. */
  datatype Scan = Scan(entries: seq<Entry>, pending: Option<string>)

  const ExtinfTag: string := "#EXTINF"

  /** What the scanner guarantees of every entry it emits. */
  predicate WellFormed(e: Entry) {
    && e.name != [] && Trimmed(e.name)
    && e.url != [] && Trimmed(e.url) && e.url[0] != '#'
  }

  /** Neither field holds a line break. */
  predicate SingleLine(e: Entry) {
    NoBreak(e.name) && NoBreak(e.url)
  }

  predicate AllSingleLine(lines: seq<string>) {
    forall k :: 0 <= k < |lines| ==> NoBreak(lines[k])
  }

  /** After stripping, the line starts with `#EXTINF`. */
  predicate IsExtinf(raw: string) {
    ExtinfTag <= Strip(raw)
  }

  /** After stripping, the line is non-empty and does not start with `#`: it can carry a URL. */
  predicate IsUrl(raw: string) {
    var line := Strip(raw);
    line != [] && line[0] != '#'
  }

  /** The register holds a name the source treats as set: present and non-empty (truthy). */
  predicate Live(pending: Option<string>) {
    pending.Some? && pending.value != []
  }

  /** Position `i` holds the first comma of `line`. */
  predicate FirstComma(line: string, i: int) {
    0 <= i < |line| && line[i] == ',' && ',' !in line[..i]
  }

  /** The name an `#EXTINF` line carries: the stripped text after its first comma, or None without a comma. */
  function NameAfterComma(line: string): (r: Option<string>)
    ensures r.None? <==> ',' !in line
  {
    match FirstIndex(line, ',')
    case None => None
    case Some(i) => Some(Strip(line[i + 1..]))
  }

  /** A name is the stripped text after the first comma of its line. */
  lemma NameAfterFirstComma(line: string) returns (i: nat)
    requires NameAfterComma(line).Some?
    ensures FirstComma(line, i)
    ensures NameAfterComma(line).value == Strip(line[i + 1..])
  {
    var k := FirstIndex(line, ',');
    i := k.value;
    assert NameAfterComma(line) == Some(Strip(line[i + 1..]));
  }

  /** One iteration of the scanning loop. */
  function Step(st: Scan, raw: string): (r: Scan)
    ensures st.entries <= r.entries && |r.entries| <= |st.entries| + 1
    ensures |r.entries| > |st.entries| ==> r.pending == None && Live(st.pending)
  {
    var line := Strip(raw);
    if ExtinfTag <= line then Scan(st.entries, NameAfterComma(line))
    else if line != [] && line[0] != '#' && Live(st.pending) then
      Scan(st.entries + [Entry(st.pending.value, line)], None)
    else st
  }

  /** Number of `#EXTINF` lines. */
  function CountExtinf(lines: seq<string>): nat {
    if |lines| == 0 then 0
    else CountExtinf(lines[..|lines| - 1]) + (if IsExtinf(lines[|lines| - 1]) then 1 else 0)
  }

  /**
   * The scanning loop over already split lines. Every emitted entry is
   * well formed, and each `#EXTINF` line feeds at most one entry: the
   * entries plus a still-pending name never outnumber the `#EXTINF` lines.
   */
  function ScanLines(lines: seq<string>): (st: Scan)
    ensures forall k :: 0 <= k < |st.entries| ==> WellFormed(st.entries[k])
    ensures st.pending.Some? ==> Trimmed(st.pending.value)
    ensures |st.entries| + (if Live(st.pending) then 1 else 0) <= CountExtinf(lines)
  {
    if |lines| == 0 then Scan([], None)
    else Step(ScanLines(lines[..|lines| - 1]), lines[|lines| - 1])
  }

  /** Lines without breaks yield entries and a pending name without breaks. */
  lemma {:induction false} ScanSingleLine(lines: seq<string>)
    requires AllSingleLine(lines)
    ensures forall k :: 0 <= k < |ScanLines(lines).entries| ==> SingleLine(ScanLines(lines).entries[k])
    ensures ScanLines(lines).pending.Some? ==> NoBreak(ScanLines(lines).pending.value)
  {
    if |lines| > 0 {
      var init := lines[..|lines| - 1];
      forall k | 0 <= k < |init| ensures NoBreak(init[k]) {
        assert init[k] == lines[k];
      }
      ScanSingleLine(init);
      StepKeepsSingleLine(ScanLines(init), lines[|lines| - 1]);
    }
  }

  /** The name taken from a line without breaks holds no break. */
  lemma NameNoBreak(line: string)
    requires NoBreak(line) && NameAfterComma(line).Some?
    ensures NoBreak(NameAfterComma(line).value)
  {
    var i := NameAfterFirstComma(line);
    assert NoBreak(line[i + 1..]);
    StripNoBreak(line[i + 1..]);
  }

  /** A line holding no break cannot bring a line break into the entries or the register. */
  lemma StepKeepsSingleLine(st: Scan, raw: string)
    requires NoBreak(raw)
    requires forall k :: 0 <= k < |st.entries| ==> SingleLine(st.entries[k])
    requires st.pending.Some? ==> NoBreak(st.pending.value)
    ensures forall k :: 0 <= k < |Step(st, raw).entries| ==> SingleLine(Step(st, raw).entries[k])
    ensures Step(st, raw).pending.Some? ==> NoBreak(Step(st, raw).pending.value)
  {
    var line := Strip(raw);
    StripNoBreak(raw);
    if ExtinfTag <= line {
      if NameAfterComma(line).Some? {
        NameNoBreak(line);
      }
    }
  }

  /** Python's `parse_m3u_channels`: the entries of a playlist text, in document order. */
  function ParseM3u(text: string): (es: seq<Entry>)
    ensures forall k :: 0 <= k < |es| ==> WellFormed(es[k])
    ensures |es| <= CountExtinf(SplitLines(text))
  {
    ScanLines(SplitLines(text)).entries
  }

  /** Emitted entries hold no line break: they come from lines that `splitlines` produced. */
  lemma ParsedEntriesSingleLine(text: string)
    ensures forall k :: 0 <= k < |ParseM3u(text)| ==> WellFormed(ParseM3u(text)[k]) && SingleLine(ParseM3u(text)[k])
  {
    ScanSingleLine(SplitLines(text));
  }

  /**
   * Line `i` is an `#EXTINF` line naming `e`, line `j` after it is `e`'s
   * URL, and no `#EXTINF` line comes between them: `e.name` is the name of
   * the latest `#EXTINF` line before the URL.
   */
  predicate Source(lines: seq<string>, i: int, j: int, e: Entry) {
    && 0 <= i < j < |lines|
    && IsExtinf(lines[i]) && NameAfterComma(Strip(lines[i])) == Some(e.name)
    && Strip(lines[j]) == e.url
    && forall m :: i < m < j ==> !IsExtinf(lines[m])
  }

  /** Some pair of lines is the source of `e`. */
  ghost predicate Traced(lines: seq<string>, e: Entry) {
    exists i, j :: Source(lines, i, j, e)
  }

  /** The register holds the name of line `i`, and no later `#EXTINF` line has replaced it. */
  predicate PendingFrom(lines: seq<string>, i: int, name: string) {
    && 0 <= i < |lines|
    && IsExtinf(lines[i]) && NameAfterComma(Strip(lines[i])) == Some(name)
    && forall m :: i < m < |lines| ==> !IsExtinf(lines[m])
  }

  lemma SourcesExtend(lines: seq<string>, x: string, es: seq<Entry>)
    requires forall k :: 0 <= k < |es| ==> Traced(lines, es[k])
    ensures forall k :: 0 <= k < |es| ==> Traced(lines + [x], es[k])
  {
    var ext := lines + [x];
    forall k | 0 <= k < |es| ensures Traced(ext, es[k]) {
      var i, j :| Source(lines, i, j, es[k]);
      forall m | i < m < j ensures !IsExtinf(ext[m]) {
        assert ext[m] == lines[m];
      }
      assert ext[i] == lines[i] && ext[j] == lines[j];
      assert Source(ext, i, j, es[k]);
    }
  }

  lemma TracedAppend(lines: seq<string>, es: seq<Entry>, e: Entry)
    requires forall k :: 0 <= k < |es| ==> Traced(lines, es[k])
    requires Traced(lines, e)
    ensures forall k :: 0 <= k < |es + [e]| ==> Traced(lines, (es + [e])[k])
  {
    forall k | 0 <= k < |es + [e]| ensures Traced(lines, (es + [e])[k]) {
      if k < |es| {
        assert (es + [e])[k] == es[k];
      }
    }
  }

  /** A URL line consumes the pending name of line `i`. */
  lemma UrlConsumes(lines: seq<string>, x: string, i: int, name: string)
    requires PendingFrom(lines, i, name) && !IsExtinf(x)
    ensures Source(lines + [x], i, |lines|, Entry(name, Strip(x)))
  {
    var ext := lines + [x];
    forall m | i < m < |lines| ensures !IsExtinf(ext[m]) {
      assert ext[m] == lines[m];
    }
    assert ext[i] == lines[i];
  }

  /** A line other than `#EXTINF` leaves the pending name where it came from. */
  lemma PendingSurvives(lines: seq<string>, x: string, i: int, name: string)
    requires PendingFrom(lines, i, name) && !IsExtinf(x)
    ensures PendingFrom(lines + [x], i, name)
  {
    var ext := lines + [x];
    forall m | i < m < |ext| ensures !IsExtinf(ext[m]) {
      if m < |lines| {
        assert ext[m] == lines[m];
      }
    }
    assert ext[i] == lines[i];
  }

  /** Every emitted entry takes its name from the latest `#EXTINF` line before its URL line. */
  lemma {:induction false} ScanProvenance(lines: seq<string>)
    ensures forall k :: 0 <= k < |ScanLines(lines).entries| ==> Traced(lines, ScanLines(lines).entries[k])
    ensures Live(ScanLines(lines).pending) ==>
      exists i :: PendingFrom(lines, i, ScanLines(lines).pending.value)
  {
    if |lines| > 0 {
      var init := lines[..|lines| - 1];
      var raw := lines[|lines| - 1];
      assert lines == init + [raw];
      ScanProvenance(init);
      var prev := ScanLines(init);
      var st := ScanLines(lines);
      assert st == Step(prev, raw);
      var line := Strip(raw);
      SourcesExtend(init, raw, prev.entries);
      if ExtinfTag <= line {
        assert st.entries == prev.entries;
        if Live(st.pending) {
          assert PendingFrom(lines, |lines| - 1, st.pending.value);
        }
      } else if line != [] && line[0] != '#' && Live(prev.pending) {
        var i :| PendingFrom(init, i, prev.pending.value);
        var e := Entry(prev.pending.value, line);
        assert st.entries == prev.entries + [e];
        UrlConsumes(init, raw, i, prev.pending.value);
        assert Traced(lines, e);
        TracedAppend(lines, prev.entries, e);
      } else {
        assert st == prev;
        if Live(st.pending) {
          var i :| PendingFrom(init, i, prev.pending.value);
          PendingSurvives(init, raw, i, prev.pending.value);
        }
      }
    }
  }

  /**
   * While no name is pending, only an `#EXTINF` line changes the scanner:
   * URL lines without a preceding named `#EXTINF` are dropped, and a name is
   * consumed by at most one URL.
   */
  lemma {:induction false} IdleUntilExtinf(a: seq<string>, b: seq<string>)
    requires !Live(ScanLines(a).pending)
    requires forall m :: 0 <= m < |b| ==> !IsExtinf(b[m])
    ensures ScanLines(a + b).entries == ScanLines(a).entries
    ensures !Live(ScanLines(a + b).pending)
    decreases |b|
  {
    if |b| == 0 {
      assert a + b == a;
    } else {
      var b' := b[..|b| - 1];
      assert (a + b)[..|a + b| - 1] == a + b';
      assert (a + b)[|a + b| - 1] == b[|b| - 1];
      IdleUntilExtinf(a, b');
    }
  }

  /** After a URL line the register is empty, whatever it held before. */
  lemma UrlClearsRegister(a: seq<string>, u: string)
    requires IsUrl(u)
    ensures !Live(ScanLines(a + [u]).pending)
  {
    assert (a + [u])[..|a + [u]| - 1] == a;
  }

  /** An `#EXTINF` line without a comma, or with an empty name, clears the register. */
  lemma NamelessExtinfClears(a: seq<string>, l: string)
    requires IsExtinf(l) && !Live(NameAfterComma(Strip(l)))
    ensures !Live(ScanLines(a + [l]).pending)
    ensures ScanLines(a + [l]).entries == ScanLines(a).entries
  {
    assert (a + [l])[..|a + [l]| - 1] == a;
  }

  /** A blank line or a `#` comment other than `#EXTINF` can be removed without changing the result. */
  lemma {:induction false} NeutralLine(a: seq<string>, l: string, b: seq<string>)
    requires !IsExtinf(l) && !IsUrl(l)
    ensures ScanLines(a + [l] + b) == ScanLines(a + b)
    decreases |b|
  {
    if |b| == 0 {
      assert a + [l] + b == a + [l];
      assert (a + [l])[..|a|] == a;
      assert a + b == a;
    } else {
      var b' := b[..|b| - 1];
      var x := b[|b| - 1];
      assert a + [l] + b == (a + [l] + b') + [x];
      assert a + b == (a + b') + [x];
      assert (a + [l] + b)[..|a + [l] + b| - 1] == a + [l] + b';
      assert (a + b)[..|a + b| - 1] == a + b';
      NeutralLine(a, l, b');
    }
  }

  /** A neutral first line changes nothing either. */
  lemma NeutralFirstLine(l: string, b: seq<string>)
    requires !IsExtinf(l) && !IsUrl(l)
    ensures ScanLines([l] + b) == ScanLines(b)
  {
    var none: seq<string> := [];
    assert none + [l] + b == [l] + b && none + b == b;
    NeutralLine(none, l, b);
  }

  /** The scan of a prefix one line longer is one more step. */
  lemma ScanStep(lines: seq<string>, n: nat)
    requires n < |lines|
    ensures ScanLines(lines[..n + 1]) == Step(ScanLines(lines[..n]), lines[n])
  {
    assert lines[..n + 1][..n] == lines[..n];
  }

  /** Scanning further lines only appends entries. */
  lemma {:induction false} EntriesGrow(lines: seq<string>, n: nat)
    requires n <= |lines|
    ensures ScanLines(lines[..n]).entries <= ScanLines(lines).entries
    decreases |lines| - n
  {
    if n == |lines| {
      assert lines[..n] == lines;
    } else {
      EntriesGrow(lines, n + 1);
      ScanStep(lines, n);
      var st := ScanLines(lines[..n]);
      assert st.entries <= ScanLines(lines[..n + 1]).entries;
      PrefixTrans(st.entries, ScanLines(lines[..n + 1]).entries, ScanLines(lines).entries);
    }
  }

  lemma PrefixTrans(a: seq<Entry>, b: seq<Entry>, c: seq<Entry>)
    requires a <= b && b <= c
    ensures a <= c
  {
    assert c[..|b|][..|a|] == c[..|a|];
  }

  /** A line that is neither an `#EXTINF` line nor a URL line. */
  predicate Inert(raw: string) {
    !IsExtinf(raw) && !IsUrl(raw)
  }

  /**
   * After an `#EXTINF` line followed only by inert lines the register holds
   * that line's name, and the entries are those from before it.
   */
  lemma {:induction false} PendingAfter(lines: seq<string>, i: nat, k: nat)
    requires i < k <= |lines| && IsExtinf(lines[i])
    requires forall m :: i < m < k ==> Inert(lines[m])
    ensures ScanLines(lines[..k]) == Scan(ScanLines(lines[..i]).entries, NameAfterComma(Strip(lines[i])))
    decreases k
  {
    ScanStep(lines, k - 1);
    if k - 1 > i {
      PendingAfter(lines, i, k - 1);
    }
  }

  /** The register holds the name of the latest `#EXTINF` line when only inert lines follow it. */
  lemma PendingIsLatest(lines: seq<string>, i: nat)
    requires i < |lines| && IsExtinf(lines[i])
    requires forall m :: i < m < |lines| ==> Inert(lines[m])
    ensures ScanLines(lines).pending == NameAfterComma(Strip(lines[i]))
  {
    PendingAfter(lines, i, |lines|);
    assert lines[..|lines|] == lines;
  }

  /** A URL line after a live name emits that name with the URL and empties the register. */
  lemma UrlEmits(a: seq<string>, u: string)
    requires Live(ScanLines(a).pending) && IsUrl(u)
    ensures ScanLines(a + [u]) == Scan(ScanLines(a).entries + [Entry(ScanLines(a).pending.value, Strip(u))], None)
  {
    ScanAppend(a, u);
    assert ExtinfTag[0] == '#';
  }

  /**
   * The converse of `ScanProvenance`: a named `#EXTINF` line whose next
   * `#EXTINF` or URL line is a URL line emits its entry, right after the
   * entries of the lines before it.
   */
  lemma EntryEmitted(lines: seq<string>, i: nat, j: nat)
    requires i < j < |lines| && IsExtinf(lines[i]) && Live(NameAfterComma(Strip(lines[i])))
    requires IsUrl(lines[j]) && forall m :: i < m < j ==> Inert(lines[m])
    ensures var k := |ScanLines(lines[..i]).entries|;
      k < |ScanLines(lines).entries| &&
      ScanLines(lines).entries[k] == Entry(NameAfterComma(Strip(lines[i])).value, Strip(lines[j]))
  {
    PendingAfter(lines, i, j);
    ScanStep(lines, j);
    assert ExtinfTag[0] == '#';
    EntriesGrow(lines, j + 1);
  }

  /** The same for a playlist text: such a pair of lines gives an entry of `parse_m3u_channels`. */
  lemma ParseEmits(text: string, i: nat, j: nat)
    requires var lines := SplitLines(text);
      && i < j < |lines| && IsExtinf(lines[i]) && Live(NameAfterComma(Strip(lines[i])))
      && IsUrl(lines[j]) && forall m :: i < m < j ==> Inert(lines[m])
    ensures Entry(NameAfterComma(Strip(SplitLines(text)[i])).value, Strip(SplitLines(text)[j])) in ParseM3u(text)
  {
    EntryEmitted(SplitLines(text), i, j);
  }

  // ---------------------------------------------------------------------
  // The projected playlist (`build_new_m3u`)
  // ---------------------------------------------------------------------

  /** The first line of the projected playlist: where the companion guide lives. */
  const M3uHeader: string := "#EXTM3U url-tvg=\"epg_su_filtru.xml.gz\""

  const TvgPrefix: string := "#EXTINF:-1 tvg-id=\""

  /** `mapping.get(name)` is truthy: the name is mapped, and to a non-empty id. */
  predicate HasId(mapping: map<string, string>, name: string) {
    name in mapping && mapping[name] != []
  }

  /** The metadata line written for an entry. */
  function ExtinfLine(e: Entry, mapping: map<string, string>): string {
    if HasId(mapping, e.name) then TvgPrefix + mapping[e.name] + "\"," + e.name
    else "#EXTINF:-1," + e.name
  }

  /** The two lines of every entry, in playlist order. */
  function EntryLines(es: seq<Entry>, mapping: map<string, string>): (ls: seq<string>)
    ensures |ls| == 2 * |es|
  {
    if |es| == 0 then []
    else EntryLines(es[..|es| - 1], mapping) + [ExtinfLine(es[|es| - 1], mapping), es[|es| - 1].url]
  }

  /** Entry `i` contributes lines `2i` and `2i + 1`: its metadata line, then its URL. */
  lemma {:induction false} EntryLineAt(es: seq<Entry>, mapping: map<string, string>, i: nat)
    requires i < |es|
    ensures EntryLines(es, mapping)[2 * i] == ExtinfLine(es[i], mapping)
    ensures EntryLines(es, mapping)[2 * i + 1] == es[i].url
    decreases |es|
  {
    var es' := es[..|es| - 1];
    var ls := EntryLines(es, mapping);
    assert ls == EntryLines(es', mapping) + [ExtinfLine(es[|es| - 1], mapping), es[|es| - 1].url];
    if i < |es'| {
      EntryLineAt(es', mapping, i);
      assert es[i] == es'[i];
    }
  }

  lemma EntryLinesAt(es: seq<Entry>, mapping: map<string, string>)
    ensures forall i :: 0 <= i < |es| ==>
      EntryLines(es, mapping)[2 * i] == ExtinfLine(es[i], mapping) && EntryLines(es, mapping)[2 * i + 1] == es[i].url
  {
    forall i | 0 <= i < |es|
      ensures EntryLines(es, mapping)[2 * i] == ExtinfLine(es[i], mapping) && EntryLines(es, mapping)[2 * i + 1] == es[i].url
    {
      EntryLineAt(es, mapping, i);
    }
  }

  /** The lines of the projected playlist: the header, then each entry's metadata line and URL. */
  function M3uLines(es: seq<Entry>, mapping: map<string, string>): (ls: seq<string>)
    ensures |ls| == 1 + 2 * |es| && ls[0] == M3uHeader
  {
    [M3uHeader] + EntryLines(es, mapping)
  }

  /**
   * The projected playlist has one header line and two lines per entry:
   * entry `i`'s metadata line at `1 + 2i` and its URL at `2 + 2i`, so no
   * entry is dropped or reordered.
   */
  lemma M3uLinesAt(es: seq<Entry>, mapping: map<string, string>)
    ensures forall i :: 0 <= i < |es| ==>
      M3uLines(es, mapping)[1 + 2 * i] == ExtinfLine(es[i], mapping) && M3uLines(es, mapping)[2 + 2 * i] == es[i].url
  {
    forall i | 0 <= i < |es|
      ensures M3uLines(es, mapping)[1 + 2 * i] == ExtinfLine(es[i], mapping) && M3uLines(es, mapping)[2 + 2 * i] == es[i].url
    {
      M3uLineAt(es, mapping, i);
    }
  }

  lemma M3uLineAt(es: seq<Entry>, mapping: map<string, string>, i: nat)
    requires i < |es|
    ensures M3uLines(es, mapping)[1 + 2 * i] == ExtinfLine(es[i], mapping)
    ensures M3uLines(es, mapping)[2 + 2 * i] == es[i].url
  {
    var ls := EntryLines(es, mapping);
    EntryLineAt(es, mapping, i);
    assert M3uLines(es, mapping)[1 + 2 * i] == ls[2 * i];
    assert M3uLines(es, mapping)[2 + 2 * i] == ls[2 * i + 1];
  }

  /** Python's `build_new_m3u`: the lines joined by newlines, with a final newline. */
  function BuildNewM3u(es: seq<Entry>, mapping: map<string, string>): (out: string)
    ensures out == Unlines(M3uLines(es, mapping))
  {
    JoinThenNewline(M3uLines(es, mapping));
    Join("\n", M3uLines(es, mapping)) + "\n"
  }

  /** Reads back the `tvg-id` attribute of a metadata line written by `ExtinfLine`. */
  function ReadTvgId(line: string): Option<string> {
    if TvgPrefix <= line then
      match Find(line, "\"", |TvgPrefix|)
      case None => None
      case Some(k) => Some(line[|TvgPrefix|..k])
    else None
  }

  /** A metadata line carries `tvg-id="…"` exactly when `mapping.get(name)` is truthy, and then it carries that id. */
  lemma TvgIdIffMapped(e: Entry, mapping: map<string, string>)
    requires HasId(mapping, e.name) ==> '"' !in mapping[e.name]
    ensures ReadTvgId(ExtinfLine(e, mapping)) == (if HasId(mapping, e.name) then Some(mapping[e.name]) else None)
  {
    var line := ExtinfLine(e, mapping);
    if HasId(mapping, e.name) {
      var id := mapping[e.name];
      var p := |TvgPrefix|;
      assert line == TvgPrefix + id + "\"," + e.name;
      assert line[..p] == TvgPrefix;
      assert line[p + |id|] == '"';
      assert OccursAt(line, "\"", p + |id|);
      forall i: nat | p <= i < p + |id| ensures !OccursAt(line, "\"", i) {
        assert line[i] == id[i - p];
        assert line[i..i + 1] == [line[i]];
      }
      assert line[p..p + |id|] == id;
    } else {
      assert line[10] == ',';
    }
  }

  /** Whatever the id holds, a metadata line opens with `#EXTINF:-1 tvg-id="` exactly when `mapping.get(name)` is truthy. */
  lemma TvgTagIffMapped(e: Entry, mapping: map<string, string>)
    ensures TvgPrefix <= ExtinfLine(e, mapping) <==> HasId(mapping, e.name)
  {
    if !HasId(mapping, e.name) {
      assert ExtinfLine(e, mapping)[10] == ',' != TvgPrefix[10];
    }
  }

  lemma HeaderSingleLine()
    ensures NoBreak(M3uHeader)
  {
    AsciiNoBreak(M3uHeader);
  }

  lemma ExtinfLineSingleLine(e: Entry, mapping: map<string, string>)
    requires NoBreak(e.name)
    requires HasId(mapping, e.name) ==> NoBreak(mapping[e.name])
    ensures NoBreak(ExtinfLine(e, mapping))
  {
    if HasId(mapping, e.name) {
      TaggedNoBreak(mapping[e.name], e.name);
    } else {
      AsciiNoBreak("#EXTINF:-1,");
      NoBreakConcat("#EXTINF:-1,", e.name);
    }
  }

  lemma TaggedNoBreak(id: string, name: string)
    requires NoBreak(id) && NoBreak(name)
    ensures NoBreak(TvgPrefix + id + "\"," + name)
  {
    AsciiNoBreak(TvgPrefix);
    AsciiNoBreak("\",");
    NoBreakConcat(TvgPrefix, id);
    NoBreakConcat(TvgPrefix + id, "\",");
    NoBreakConcat(TvgPrefix + id + "\",", name);
  }

  /** Line `k` of the projected playlist holds no line break when the names and ids do not. */
  lemma M3uLineSingle(es: seq<Entry>, mapping: map<string, string>, k: nat)
    requires forall i :: 0 <= i < |es| ==> SingleLine(es[i])
    requires forall n :: HasId(mapping, n) ==> NoBreak(mapping[n])
    requires k < 1 + 2 * |es|
    ensures NoBreak(M3uLines(es, mapping)[k])
  {
    M3uLinesAt(es, mapping);
    if k == 0 {
      HeaderSingleLine();
    } else if k % 2 == 1 {
      var i := (k - 1) / 2;
      assert k == 1 + 2 * i;
      ExtinfLineSingleLine(es[i], mapping);
    } else {
      var i := (k - 2) / 2;
      assert k == 2 + 2 * i;
      assert M3uLines(es, mapping)[k] == es[i].url;
    }
  }

  /** The header and every metadata line hold no line break when the names and ids do not. */
  lemma M3uLinesSingleLine(es: seq<Entry>, mapping: map<string, string>)
    requires forall i :: 0 <= i < |es| ==> SingleLine(es[i])
    requires forall n :: HasId(mapping, n) ==> NoBreak(mapping[n])
    ensures AllSingleLine(M3uLines(es, mapping))
  {
    forall k | 0 <= k < |M3uLines(es, mapping)| ensures NoBreak(M3uLines(es, mapping)[k]) {
      M3uLineSingle(es, mapping, k);
    }
  }

  /** When `head` ends with its only comma, the name after the first comma of `head + name` is `name`, stripped. */
  lemma NameAfterOnlyComma(head: string, name: string)
    requires |head| > 0 && head[|head| - 1] == ','
    requires ',' !in head[..|head| - 1]
    ensures NameAfterComma(head + name) == Some(Strip(name))
  {
    var line := head + name;
    var c := |head| - 1;
    assert line[c] == ',';
    assert line[..c] == head[..c];
    assert FirstComma(line, c);
    var i := NameAfterFirstComma(line);
    assert line[c + 1..] == name;
  }

  /** The metadata line of a well-formed entry is stripped, is an `#EXTINF` line, and names that entry. */
  lemma ExtinfLineNamesEntry(e: Entry, mapping: map<string, string>)
    requires WellFormed(e)
    requires HasId(mapping, e.name) ==> ',' !in mapping[e.name]
    ensures Strip(ExtinfLine(e, mapping)) == ExtinfLine(e, mapping)
    ensures IsExtinf(ExtinfLine(e, mapping))
    ensures NameAfterComma(ExtinfLine(e, mapping)) == Some(e.name)
  {
    var line := ExtinfLine(e, mapping);
    var head := if HasId(mapping, e.name) then TvgPrefix + mapping[e.name] + "\"," else "#EXTINF:-1,";
    assert line == head + e.name;
    assert line[|line| - 1] == e.name[|e.name| - 1];
    assert Trimmed(line);
    assert ExtinfTag <= line;
    if HasId(mapping, e.name) {
      var id := mapping[e.name];
      assert head[..|head| - 1] == TvgPrefix + id + "\"";
      assert ',' !in TvgPrefix;
    }
    NameAfterOnlyComma(head, e.name);
  }

  /** Scanning one more line is one more step. */
  lemma ScanAppend(lines: seq<string>, x: string)
    ensures ScanLines(lines + [x]) == Step(ScanLines(lines), x)
  {
    assert (lines + [x])[..|lines|] == lines;
  }

  /** The header line is a comment: neither an `#EXTINF` line nor a URL line. */
  lemma HeaderIsComment()
    ensures !IsExtinf(M3uHeader) && !IsUrl(M3uHeader)
  {
    HeaderTrimmed();
    assert M3uHeader[4] != ExtinfTag[4];
  }

  lemma HeaderTrimmed()
    ensures Strip(M3uHeader) == M3uHeader
  {
    assert M3uHeader[0] == '#' && M3uHeader[|M3uHeader| - 1] == '"';
    assert Trimmed(M3uHeader);
  }

  lemma ExtinfStep(es: seq<Entry>, e: Entry, mapping: map<string, string>)
    requires WellFormed(e)
    requires HasId(mapping, e.name) ==> ',' !in mapping[e.name]
    ensures Step(Scan(es, None), ExtinfLine(e, mapping)) == Scan(es, Some(e.name))
  {
    ExtinfLineNamesEntry(e, mapping);
  }

  lemma UrlStep(es: seq<Entry>, e: Entry)
    requires WellFormed(e)
    ensures Step(Scan(es, Some(e.name)), e.url) == Scan(es + [e], None)
  {
    assert Strip(e.url) == e.url;
  }

  /** From an idle scanner, an entry's metadata line and URL line emit exactly that entry. */
  lemma ScanEntryLines(lines: seq<string>, es: seq<Entry>, e: Entry, mapping: map<string, string>)
    requires ScanLines(lines) == Scan(es, None)
    requires WellFormed(e)
    requires HasId(mapping, e.name) ==> ',' !in mapping[e.name]
    ensures ScanLines(lines + [ExtinfLine(e, mapping)] + [e.url]) == Scan(es + [e], None)
  {
    var x := ExtinfLine(e, mapping);
    ScanAppend(lines, x);
    ExtinfStep(es, e, mapping);
    ScanAppend(lines + [x], e.url);
    UrlStep(es, e);
  }

  lemma EntryLinesSnoc(es: seq<Entry>, mapping: map<string, string>)
    requires |es| > 0
    ensures EntryLines(es, mapping)
         == EntryLines(es[..|es| - 1], mapping) + [ExtinfLine(es[|es| - 1], mapping)] + [es[|es| - 1].url]
  {
    var rest := EntryLines(es[..|es| - 1], mapping);
    assert rest + [ExtinfLine(es[|es| - 1], mapping), es[|es| - 1].url]
        == rest + [ExtinfLine(es[|es| - 1], mapping)] + [es[|es| - 1].url];
  }

  /** One more entry: its two lines, scanned after the earlier ones, emit it. */
  lemma ScanEntryLinesSnoc(es: seq<Entry>, mapping: map<string, string>)
    requires |es| > 0
    requires ScanLines(EntryLines(es[..|es| - 1], mapping)) == Scan(es[..|es| - 1], None)
    requires WellFormed(es[|es| - 1])
    requires HasId(mapping, es[|es| - 1].name) ==> ',' !in mapping[es[|es| - 1].name]
    ensures ScanLines(EntryLines(es, mapping)) == Scan(es, None)
  {
    var es' := es[..|es| - 1];
    var e := es[|es| - 1];
    EntryLinesSnoc(es, mapping);
    ScanEntryLines(EntryLines(es', mapping), es', e, mapping);
    Seqs.SnocLast(es);
  }

  /** Scanning the entry lines of the projected playlist rebuilds the entries and leaves no name pending. */
  lemma {:induction false} ScanProjected(es: seq<Entry>, mapping: map<string, string>)
    requires forall i :: 0 <= i < |es| ==> WellFormed(es[i])
    requires forall n :: HasId(mapping, n) ==> ',' !in mapping[n]
    ensures ScanLines(EntryLines(es, mapping)) == Scan(es, None)
    decreases |es|
  {
    if |es| > 0 {
      ScanProjected(es[..|es| - 1], mapping);
      ScanEntryLinesSnoc(es, mapping);
    }
  }

  /** The header is skipped, so scanning all the projected lines gives the entries back. */
  lemma ScanM3uLines(es: seq<Entry>, mapping: map<string, string>)
    requires forall i :: 0 <= i < |es| ==> WellFormed(es[i])
    requires forall n :: HasId(mapping, n) ==> ',' !in mapping[n]
    ensures ScanLines(M3uLines(es, mapping)) == Scan(es, None)
  {
    HeaderIsComment();
    NeutralFirstLine(M3uHeader, EntryLines(es, mapping));
    ScanProjected(es, mapping);
  }

  /**
   * Round trip: parsing the projected playlist gives back exactly the
   * entries it was built from, in order, for entries the parser can produce
   * and ids holding no comma or line break.
   */
  lemma ParseBuildRoundTrip(es: seq<Entry>, mapping: map<string, string>)
    requires forall i :: 0 <= i < |es| ==> WellFormed(es[i]) && SingleLine(es[i])
    requires forall n :: HasId(mapping, n) ==> ',' !in mapping[n] && NoBreak(mapping[n])
    ensures ParseM3u(BuildNewM3u(es, mapping)) == es
  {
    M3uLinesSingleLine(es, mapping);
    SplitUnlines(M3uLines(es, mapping));
    ScanM3uLines(es, mapping);
  }
}

=== FILE: projector.dfy ===
/**
 * `build_filtered_epg`: the guide cut down to the matched channels. The
 * output is the guide's header, the channel elements whose id is used, the
 * programme elements whose first `channel="…"` value is used, and the
 * closing `</tv>`, one per line. Kept elements are copied verbatim.
 */
module GuideProjector {
  import opened Wrappers
  import opened Text
  import opened GuideBlocks
  import Seqs

  /** The header written when the guide has no `<tv…>` tag. */
  const FallbackHeader := "<?xml version=\"1.0\" encoding=\"utf-8\"?><tv>"

  const Footer := "</tv>"

  /**
   * The header: the guide from its start up to the `>` that closes its
   * first `<tv` tag, or the fallback when the guide has none.
   */
  function Header(xml: string): (h: string)
    ensures (forall i: nat, j: nat :: !HeaderShape(xml, i, j)) ==> h == FallbackHeader
    ensures HeaderAt(xml).Some? ==> 0 < |h| <= |xml| && h == xml[..|h|] && HeaderShape(xml, HeaderAt(xml).value.tv, |h| - 1)
  {
    match HeaderAt(xml)
    case Some(span) => xml[..span.gt + 1]
    case None => FallbackHeader
  }

  /** Whether a programme is kept: its first `channel="…"` value exists and is used. */
  predicate KeepProgramme(used: set<string>, p: ProgrammeBlock) {
    ChannelAttr(p.body).Some? && ChannelAttr(p.body).value in used
  }

  /** The channel elements whose id is used: all of them, in document order, and no others. */
  function KeptChannels(xml: string, used: set<string>): (bs: seq<ChannelBlock>)
    ensures forall i :: 0 <= i < |bs| ==> bs[i] in ChannelBlocks(xml) && bs[i].id in used
    ensures forall i :: 0 <= i < |bs| ==> bs[i].start < bs[i].end <= |xml|
    ensures forall i :: 0 <= i < |ChannelBlocks(xml)| && ChannelBlocks(xml)[i].id in used ==> ChannelBlocks(xml)[i] in bs
    ensures forall i, j :: 0 <= i < j < |bs| ==> bs[i].end <= bs[j].start
  {
    var all := ChannelBlocks(xml);
    var keep := (b: ChannelBlock) => b.id in used;
    Seqs.FilterKeepsOrder(all, keep, (a: ChannelBlock, b: ChannelBlock) => a.end <= b.start);
    Seqs.Filter(all, keep)
  }

  /** The programme elements whose first `channel="…"` value is used: all of them, in document order, and no others. */
  function KeptProgrammes(xml: string, used: set<string>): (ps: seq<ProgrammeBlock>)
    ensures forall i :: 0 <= i < |ps| ==> ps[i] in ProgrammeBlocks(xml) && KeepProgramme(used, ps[i])
    ensures forall i :: 0 <= i < |ps| ==> ps[i].start < ps[i].end <= |xml|
    ensures forall i :: 0 <= i < |ProgrammeBlocks(xml)| && KeepProgramme(used, ProgrammeBlocks(xml)[i]) ==> ProgrammeBlocks(xml)[i] in ps
    ensures forall i, j :: 0 <= i < j < |ps| ==> ps[i].end <= ps[j].start
  {
    var all := ProgrammeBlocks(xml);
    var keep := (p: ProgrammeBlock) => KeepProgramme(used, p);
    Seqs.FilterKeepsOrder(all, keep, (a: ProgrammeBlock, b: ProgrammeBlock) => a.end <= b.start);
    Seqs.Filter(all, keep)
  }

  /** The ids of the kept channel elements. */
  function KeptIds(xml: string, used: set<string>): set<string> {
    BlockIds(KeptChannels(xml, used))
  }

  /** The kept channel elements carry exactly the used ids that some channel element of the guide carries. */
  lemma KeptIdsAreUsedIds(xml: string, used: set<string>)
    ensures KeptIds(xml, used) == used * ChannelIds(xml)
  {
    forall id | id in used * ChannelIds(xml) ensures id in KeptIds(xml, used) {
      UsedIdKept(xml, used, id);
    }
    forall id | id in KeptIds(xml, used) ensures id in used * ChannelIds(xml) {
      KeptIdUsed(xml, used, id);
    }
  }

  lemma UsedIdKept(xml: string, used: set<string>, id: string)
    requires id in used && id in ChannelIds(xml)
    ensures id in KeptIds(xml, used)
  {
    var all, kc := ChannelBlocks(xml), KeptChannels(xml, used);
    var k := BlockIdIndex(all, id);
    var i := Seqs.IndexOf(kc, all[k]);
    BlockIdListed(kc, i);
  }

  lemma KeptIdUsed(xml: string, used: set<string>, id: string)
    requires id in KeptIds(xml, used)
    ensures id in used && id in ChannelIds(xml)
  {
    var all, kc := ChannelBlocks(xml), KeptChannels(xml, used);
    var i := BlockIdIndex(kc, id);
    var k := Seqs.IndexOf(all, kc[i]);
    BlockIdListed(all, k);
  }

  /** Each kept channel as it is written back. */
  function ChannelTexts(bs: seq<ChannelBlock>): seq<string> {
    seq(|bs|, i requires 0 <= i < |bs| => ChannelText(bs[i].id, bs[i].inner))
  }

  /** Each kept programme as it is written back. */
  function ProgrammeTexts(ps: seq<ProgrammeBlock>): seq<string> {
    seq(|ps|, i requires 0 <= i < |ps| => ProgrammeText(ps[i].body))
  }

  /** Header, channel texts, programme texts and footer, in that order. */
  function Assemble(h: string, kc: seq<ChannelBlock>, kp: seq<ProgrammeBlock>): seq<string> {
    [h] + ChannelTexts(kc) + ProgrammeTexts(kp) + [Footer]
  }

  /** The list `out` before it is joined: header, kept channels, kept programmes, footer. */
  function Pieces(xml: string, used: set<string>): seq<string> {
    Assemble(Header(xml), KeptChannels(xml, used), KeptProgrammes(xml, used))
  }

  /**
   * `build_filtered_epg`: the pieces joined by newlines, so that with one
   * more newline every piece is a line of its own; it starts with the
   * header and ends with `</tv>`.
   */
  function BuildFilteredEpg(xml: string, used: set<string>): (out: string)
    ensures out + "\n" == Unlines(Pieces(xml, used))
    ensures Header(xml) <= out
    ensures EndsWith(out, Footer)
  {
    AssembleEnds(Header(xml), KeptChannels(xml, used), KeptProgrammes(xml, used));
    JoinThenNewline(Pieces(xml, used));
    JoinEnds("\n", Pieces(xml, used));
    Join("\n", Pieces(xml, used))
  }

  /** Where the parts of an assembled list sit. */
  lemma AssembleEnds(h: string, kc: seq<ChannelBlock>, kp: seq<ProgrammeBlock>)
    ensures var ps := Assemble(h, kc, kp);
      |ps| == 2 + |kc| + |kp| && ps[0] == h && ps[|ps| - 1] == Footer
  {
  }

  lemma AssembleChannel(h: string, kc: seq<ChannelBlock>, kp: seq<ProgrammeBlock>, i: nat)
    requires i < |kc|
    ensures Assemble(h, kc, kp)[1 + i] == ChannelText(kc[i].id, kc[i].inner)
  {
    var a, b := ChannelTexts(kc), ProgrammeTexts(kp);
    assert ([h] + a + b + [Footer])[1 + i] == a[i];
  }

  lemma AssembleProgramme(h: string, kc: seq<ChannelBlock>, kp: seq<ProgrammeBlock>, i: nat)
    requires i < |kp|
    ensures Assemble(h, kc, kp)[1 + |kc| + i] == ProgrammeText(kp[i].body)
  {
    var a, b := ChannelTexts(kc), ProgrammeTexts(kp);
    assert ([h] + a + b + [Footer])[1 + |a| + i] == b[i];
  }

  lemma PieceChannelAt(xml: string, used: set<string>, i: nat)
    requires i < |KeptChannels(xml, used)|
    ensures Pieces(xml, used)[1 + i] == xml[KeptChannels(xml, used)[i].start..KeptChannels(xml, used)[i].end]
  {
    AssembleChannel(Header(xml), KeptChannels(xml, used), KeptProgrammes(xml, used), i);
    ChannelBlockVerbatim(xml, KeptChannels(xml, used)[i]);
  }

  /** After the header come the kept channel elements, each the exact text of the guide it was found at. */
  lemma PiecesChannels(xml: string, used: set<string>)
    ensures forall i :: 0 <= i < |KeptChannels(xml, used)| ==>
      Pieces(xml, used)[1 + i] == xml[KeptChannels(xml, used)[i].start..KeptChannels(xml, used)[i].end]
  {
    forall i | 0 <= i < |KeptChannels(xml, used)|
      ensures Pieces(xml, used)[1 + i] == xml[KeptChannels(xml, used)[i].start..KeptChannels(xml, used)[i].end]
    {
      PieceChannelAt(xml, used, i);
    }
  }

  lemma PieceProgrammeAt(xml: string, used: set<string>, i: nat)
    requires i < |KeptProgrammes(xml, used)|
    ensures Pieces(xml, used)[1 + |KeptChannels(xml, used)| + i]
        == xml[KeptProgrammes(xml, used)[i].start..KeptProgrammes(xml, used)[i].end]
  {
    AssembleProgramme(Header(xml), KeptChannels(xml, used), KeptProgrammes(xml, used), i);
    ProgrammeBlockVerbatim(xml, KeptProgrammes(xml, used)[i]);
  }

  /** After the channels come the kept programme elements, each the exact text of the guide it was found at. */
  lemma PiecesProgrammes(xml: string, used: set<string>)
    ensures forall i :: 0 <= i < |KeptProgrammes(xml, used)| ==>
      Pieces(xml, used)[1 + |KeptChannels(xml, used)| + i]
        == xml[KeptProgrammes(xml, used)[i].start..KeptProgrammes(xml, used)[i].end]
  {
    forall i | 0 <= i < |KeptProgrammes(xml, used)|
      ensures Pieces(xml, used)[1 + |KeptChannels(xml, used)| + i]
        == xml[KeptProgrammes(xml, used)[i].start..KeptProgrammes(xml, used)[i].end]
    {
      PieceProgrammeAt(xml, used, i);
    }
  }

  /** The header first, the footer last, and one piece per kept channel and kept programme in between. */
  lemma PiecesEnds(xml: string, used: set<string>)
    ensures |Pieces(xml, used)| == 2 + |KeptChannels(xml, used)| + |KeptProgrammes(xml, used)|
    ensures Pieces(xml, used)[0] == Header(xml)
    ensures Pieces(xml, used)[|Pieces(xml, used)| - 1] == Footer
  {
    AssembleEnds(Header(xml), KeptChannels(xml, used), KeptProgrammes(xml, used));
  }
}

=== FILE: seqs.dfy ===
/** Order-preserving filtering, the shape of every "keep the blocks whose id is used" loop. */
module Seqs {

  /** The elements of `s` that satisfy `keep`, in their original order. */
  function Filter<T>(s: seq<T>, keep: T -> bool): (r: seq<T>)
    ensures |r| <= |s|
    ensures forall i :: 0 <= i < |r| ==> r[i] in s && keep(r[i])
    ensures forall i :: 0 <= i < |s| && keep(s[i]) ==> s[i] in r
    decreases |s|
  {
    if |s| == 0 then []
    else (if keep(s[0]) then [s[0]] else []) + Filter(s[1..], keep)
  }

  /** Filtering keeps relative order: any ordering that holds between the elements of `s` holds of the result. */
  lemma {:induction false} FilterKeepsOrder<T>(s: seq<T>, keep: T -> bool, before: (T, T) -> bool)
    requires forall i, j :: 0 <= i < j < |s| ==> before(s[i], s[j])
    ensures forall i, j :: 0 <= i < j < |Filter(s, keep)| ==> before(Filter(s, keep)[i], Filter(s, keep)[j])
    decreases |s|
  {
    if |s| > 0 {
      var rest := Filter(s[1..], keep);
      FilterKeepsOrder(s[1..], keep, before);
      if keep(s[0]) {
        var r := [s[0]] + rest;
        assert Filter(s, keep) == r;
        forall i, j | 0 <= i < j < |r| ensures before(r[i], r[j]) {
          if i == 0 {
            assert r[j] == rest[j - 1] && rest[j - 1] in s[1..];
            var m :| 0 <= m < |s[1..]| && s[1..][m] == r[j];
            assert s[1 + m] == r[j];
          } else {
            assert r[i] == rest[i - 1] && r[j] == rest[j - 1];
          }
        }
      } else {
        assert Filter(s, keep) == rest;
      }
    }
  }

  /** The position of an element of `s`. */
  lemma IndexOf<T>(s: seq<T>, x: T) returns (i: nat)
    requires x in s
    ensures i < |s| && s[i] == x
  {
    i :| i < |s| && s[i] == x;
  }

  /** A nonempty sequence is its prefix followed by its last element. */
  lemma SnocLast<T>(s: seq<T>)
    requires |s| > 0
    ensures s[..|s| - 1] + [s[|s| - 1]] == s
  {
  }
}

=== FILE: text.dfy ===
/**
 * Character classes and string primitives shared by the parsers and the
 * serialisers: Python's whitespace and line-break tables, literal search,
 * `str.strip`, whitespace collapsing, `str.splitlines` and `str.join`.
 */
module Text {
  import opened Wrappers

  /** Python's whitespace test: `str.isspace`, which is also the class `\s` matches in a str pattern. */
  predicate IsSpace(c: char) {
    || ('\t' <= c <= '\r')
    || ('\U{1C}' <= c <= ' ')
    || c == '\U{85}' || c == '\U{A0}' || c == '\U{1680}'
    || ('\U{2000}' <= c <= '\U{200A}')
    || c == '\U{2028}' || c == '\U{2029}' || c == '\U{202F}' || c == '\U{205F}' || c == '\U{3000}'
  }

  /** The characters at which `str.splitlines` ends a line. */
  predicate IsLineBreak(c: char) {
    || ('\n' <= c <= '\r')
    || ('\U{1C}' <= c <= '\U{1E}')
    || c == '\U{85}' || c == '\U{2028}' || c == '\U{2029}'
  }

  predicate AllSpace(s: string) {
    forall k :: 0 <= k < |s| ==> IsSpace(s[k])
  }

  predicate NoBreak(s: string) {
    forall k :: 0 <= k < |s| ==> !IsLineBreak(s[k])
  }

  /** Printable ASCII text holds no line break. */
  lemma AsciiNoBreak(s: string)
    requires forall k :: 0 <= k < |s| ==> ' ' <= s[k] <= '~'
    ensures NoBreak(s)
  {
  }

  /** No whitespace at either end: what `str.strip` leaves. */
  predicate Trimmed(s: string) {
    |s| == 0 || (!IsSpace(s[0]) && !IsSpace(s[|s| - 1]))
  }

  /** Trimmed, and every whitespace run reduced to one plain space. */
  predicate Normalized(s: string) {
    && Trimmed(s)
    && (forall k :: 0 <= k < |s| && IsSpace(s[k]) ==> s[k] == ' ')
    && (forall k :: 0 < k < |s| && IsSpace(s[k]) ==> !IsSpace(s[k - 1]))
  }

  predicate OccursAt(s: string, pat: string, i: nat) {
    i + |pat| <= |s| && s[i..i + |pat|] == pat
  }

  /** `suffix` is how `s` ends. */
  predicate EndsWith(s: string, suffix: string) {
    |suffix| <= |s| && s[|s| - |suffix|..] == suffix
  }

  /** The first occurrence of `pat` in `s` at or after `from`, as Python's `s.find(pat, from)` reports it. */
  function Find(s: string, pat: string, from: nat): (r: Option<nat>)
    ensures r.Some? ==> from <= r.value && OccursAt(s, pat, r.value)
    ensures r.Some? ==> forall i: nat :: from <= i < r.value ==> !OccursAt(s, pat, i)
    ensures r.None? ==> forall i: nat :: from <= i ==> !OccursAt(s, pat, i)
    decreases |s| - from
  {
    if from + |pat| > |s| then None
    else if s[from..from + |pat|] == pat then Some(from)
    else Find(s, pat, from + 1)
  }

  /** The first position of the character `c` in `s`. */
  function FirstIndex(s: string, c: char): (r: Option<nat>)
    ensures r.None? <==> c !in s
    ensures r.Some? ==> r.value < |s| && s[r.value] == c && c !in s[..r.value]
  {
    if |s| == 0 then None
    else if s[0] == c then Some(0)
    else
      match FirstIndex(s[1..], c)
      case None => None
      case Some(k) =>
        TakeCons(s, k);
        Some(k + 1)
  }

  /** No occurrence of `pat` starts in `[lo, hi)`. */
  predicate Absent(s: string, pat: string, lo: nat, hi: nat) {
    forall i: nat :: lo <= i < hi ==> !OccursAt(s, pat, i)
  }

  /** A suffix is its two halves put together. */
  lemma DropSplit(s: string, i: nat, j: nat)
    requires i <= j <= |s|
    ensures s[i..] == s[i..j] + s[j..]
  {
  }

  /** A slice is its two halves put together. */
  lemma SliceSplit(s: string, i: nat, j: nat, k: nat)
    requires i <= j <= k <= |s|
    ensures s[i..k] == s[i..j] + s[j..k]
  {
  }

  /** Number of whitespace characters at the start of `s`. */
  function LeadingSpace(s: string): (n: nat)
    ensures n <= |s| && AllSpace(s[..n])
    ensures n < |s| ==> !IsSpace(s[n])
  {
    if |s| == 0 || !IsSpace(s[0]) then 0
    else
      var m := LeadingSpace(s[1..]);
      TakeCons(s, m);
      1 + m
  }

  /** Length of `s` once its trailing whitespace is removed. */
  function TrailingStart(s: string): (n: nat)
    ensures n <= |s| && AllSpace(s[n..])
    ensures 0 < n ==> !IsSpace(s[n - 1])
  {
    if |s| == 0 || !IsSpace(s[|s| - 1]) then |s|
    else
      var m := TrailingStart(s[..|s| - 1]);
      DropLast(s, m);
      m
  }

  lemma TakeCons(s: string, m: nat)
    requires m < |s|
    ensures s[..1 + m] == [s[0]] + s[1..][..m]
  {
  }

  lemma DropCons(s: string, m: nat)
    requires m < |s|
    ensures s[1..][m..] == s[1 + m..]
  {
  }

  lemma ConcatAssoc(a: string, b: string, c: string)
    ensures a + (b + c) == (a + b) + c
  {
  }

  lemma SliceChars(s: string, i: nat, width: nat)
    requires i + width <= |s| && 1 <= width <= 2
    ensures width == 1 ==> s[i..i + width] == [s[i]]
    ensures width == 2 ==> s[i..i + width] == [s[i], s[i + 1]]
  {
  }

  lemma DropSlices(s: string, n: nat, w: nat)
    requires n + w <= |s|
    ensures s[n..][..w] == s[n..n + w] && s[n..][w..] == s[n + w..]
  {
  }

  lemma EndsWithAppend(a: string, b: string, x: string)
    requires EndsWith(b, x)
    ensures EndsWith(a + b, x)
  {
    assert (a + b)[|a + b| - |x|..] == b[|b| - |x|..];
  }

  lemma SplitAt(s: string, i: nat)
    requires i <= |s|
    ensures s == s[..i] + s[i..]
  {
  }

  lemma ConcatEmpty(a: string)
    ensures "" + a == a
  {
  }

  lemma DropLast(s: string, m: nat)
    requires m < |s|
    ensures s[m..] == s[..|s| - 1][m..] + [s[|s| - 1]]
  {
  }

  /** Python's `str.strip()`: `s` without its leading and trailing whitespace. */
  function Strip(s: string): (r: string)
    ensures Trimmed(r) && |r| <= |s|
    ensures Trimmed(s) ==> r == s
  {
    var i := LeadingSpace(s);
    s[i..i + TrailingStart(s[i..])]
  }

  /** `Strip(s)` is the slice `s[i..j]`, and everything cut off on either side is whitespace. */
  lemma StripSlice(s: string) returns (i: nat, j: nat)
    ensures i <= j <= |s| && Strip(s) == s[i..j]
    ensures AllSpace(s[..i]) && AllSpace(s[j..])
  {
    i := LeadingSpace(s);
    var t := TrailingStart(s[i..]);
    assert s[i + t..] == s[i..][t..];
    j := i + t;
  }

  /** A concatenation holds no line break exactly when neither part does. */
  lemma NoBreakConcat(a: string, b: string)
    ensures NoBreak(a + b) <==> NoBreak(a) && NoBreak(b)
  {
    if NoBreak(a + b) {
      forall k | 0 <= k < |a| ensures !IsLineBreak(a[k]) {
        assert a[k] == (a + b)[k];
      }
      forall k | 0 <= k < |b| ensures !IsLineBreak(b[k]) {
        assert b[k] == (a + b)[|a| + k];
      }
    }
  }

  /** Stripping cannot introduce a line break. */
  lemma StripNoBreak(s: string)
    requires NoBreak(s)
    ensures NoBreak(Strip(s))
  {
    var i, j := StripSlice(s);
  }

  /** Python's `re.sub(r"\s+", " ", s)`: every maximal whitespace run becomes one plain space. */
  function CollapseSpace(s: string): (r: string)
    ensures forall k :: 0 <= k < |r| && IsSpace(r[k]) ==> r[k] == ' '
    ensures forall k :: 0 < k < |r| && IsSpace(r[k]) ==> !IsSpace(r[k - 1])
    ensures |r| == 0 <==> |s| == 0
    ensures 0 < |s| ==> (IsSpace(r[0]) <==> IsSpace(s[0]))
    ensures NonSpace(r) == NonSpace(s)
    decreases |s|
  {
    if |s| == 0 then []
    else if IsSpace(s[0]) then
      var n := LeadingSpace(s);
      NonSpaceSkipsSpace(s, n);
      " " + CollapseSpace(s[n..])
    else
      [s[0]] + CollapseSpace(s[1..])
  }

  /** The non-whitespace characters of `s`, in order. */
  function NonSpace(s: string): string {
    if |s| == 0 then []
    else (if IsSpace(s[0]) then [] else [s[0]]) + NonSpace(s[1..])
  }

  lemma {:induction false} NonSpaceSkipsSpace(s: string, n: nat)
    requires n <= |s| && AllSpace(s[..n])
    ensures NonSpace(s) == NonSpace(s[n..])
    decreases n
  {
    if n > 0 {
      assert s[1..][..n - 1] == s[1..n];
      NonSpaceSkipsSpace(s[1..], n - 1);
      assert s[1..][n - 1..] == s[n..];
    }
  }

  /** What the guide parser does to each display name: collapse whitespace runs, then strip. */
  function Clean(s: string): (r: string)
    ensures Normalized(r)
    ensures NonSpace(r) == NonSpace(s)
    ensures r == Join(" ", Words(s))
  {
    var c := CollapseSpace(s);
    StripKeepsSpacing(c);
    StripKeepsNonSpace(c);
    StripCollapsed(s);
    Strip(c)
  }

  /** Stripping only removes whitespace. */
  lemma StripKeepsNonSpace(s: string)
    ensures NonSpace(Strip(s)) == NonSpace(s)
  {
    var r := Strip(s);
    var i, j := StripSlice(s);
    var tail := s[j..];
    NonSpaceSkipsSpace(s, i);
    DropSplit(s, i, j);
    NonSpaceAllSpace(tail);
    NonSpaceAppend(r, tail);
    assert NonSpace(r + tail) == NonSpace(r);
  }

  /** Stripping a string whose whitespace is single plain spaces leaves a normalized string. */
  lemma StripKeepsSpacing(s: string)
    requires forall k :: 0 <= k < |s| && IsSpace(s[k]) ==> s[k] == ' '
    requires forall k :: 0 < k < |s| && IsSpace(s[k]) ==> !IsSpace(s[k - 1])
    ensures Normalized(Strip(s))
  {
    var r := Strip(s);
    var i, j := StripSlice(s);
    forall k | 0 < k < |r| && IsSpace(r[k])
      ensures !IsSpace(r[k - 1])
    {
      assert r[k] == s[i + k] && r[k - 1] == s[i + k - 1];
    }
  }

  lemma {:induction false} NonSpaceAllSpace(s: string)
    requires AllSpace(s)
    ensures NonSpace(s) == []
    decreases |s|
  {
    if |s| > 0 {
      NonSpaceAllSpace(s[1..]);
    }
  }

  lemma {:induction false} NonSpaceAppend(a: string, b: string)
    ensures NonSpace(a + b) == NonSpace(a) + NonSpace(b)
    decreases |a|
  {
    if |a| > 0 {
      var head := if IsSpace(a[0]) then [] else [a[0]];
      assert (a + b)[0] == a[0];
      assert (a + b)[1..] == a[1..] + b;
      NonSpaceAppend(a[1..], b);
      assert NonSpace(a + b) == head + (NonSpace(a[1..]) + NonSpace(b));
      assert NonSpace(a) == head + NonSpace(a[1..]);
    } else {
      assert a + b == b;
    }
  }

  // ---------------------------------------------------------------------
  // Words: the reference for whitespace cleaning
  // ---------------------------------------------------------------------

  /** No character of `s` is whitespace. */
  predicate NoSpace(s: string) {
    forall k :: 0 <= k < |s| ==> !IsSpace(s[k])
  }

  /** Number of non-whitespace characters at the start of `s`. */
  function WordLength(s: string): (n: nat)
    ensures n <= |s| && NoSpace(s[..n])
    ensures n < |s| ==> IsSpace(s[n])
  {
    if |s| == 0 || IsSpace(s[0]) then 0
    else
      var m := WordLength(s[1..]);
      TakeCons(s, m);
      1 + m
  }

  /** Python's `s.split()`: the maximal runs of non-whitespace characters, in order. */
  function Words(s: string): (ws: seq<string>)
    ensures forall k :: 0 <= k < |ws| ==> ws[k] != [] && NoSpace(ws[k])
    decreases |s|
  {
    if |s| == 0 then []
    else if IsSpace(s[0]) then Words(s[1..])
    else
      var n := WordLength(s);
      [s[..n]] + Words(s[n..])
  }

  /** Leading whitespace does not change the words. */
  lemma {:induction false} WordsSkipSpace(s: string)
    ensures Words(s) == Words(s[LeadingSpace(s)..])
    decreases |s|
  {
    if |s| > 0 && IsSpace(s[0]) {
      WordsSkipSpace(s[1..]);
      DropCons(s, LeadingSpace(s[1..]));
    } else {
      assert s[0..] == s;
    }
  }

  /** A string that starts with a word: that word, then the words of the rest. */
  lemma WordsOfWord(s: string)
    requires |s| > 0 && !IsSpace(s[0])
    ensures Words(s) == [s[..WordLength(s)]] + Words(s[WordLength(s)..])
  {
  }

  /** A string without words is all whitespace. */
  lemma {:induction false} WordsNoneAllSpace(s: string)
    requires Words(s) == []
    ensures AllSpace(s)
    decreases |s|
  {
    if |s| > 0 {
      WordsNoneAllSpace(s[1..]);
      forall k | 0 < k < |s| ensures IsSpace(s[k]) {
        assert s[k] == s[1..][k - 1];
      }
    }
  }

  /** Collapsing passes the characters of a leading word through unchanged. */
  lemma {:induction false} CollapseWordPrefix(s: string, m: nat)
    requires m <= WordLength(s)
    ensures m <= |s| && CollapseSpace(s) == s[..m] + CollapseSpace(s[m..])
    decreases m
  {
    if m == 0 {
      assert s[0..] == s;
    } else {
      var t := s[1..];
      assert !IsSpace(s[0]) by { assert s[..WordLength(s)][0] == s[0]; }
      CollapseWordPrefix(t, m - 1);
      TakeCons(s, m - 1);
      DropCons(s, m - 1);
      var u := CollapseSpace(s[m..]);
      assert CollapseSpace(s) == [s[0]] + CollapseSpace(t);
      assert CollapseSpace(t) == t[..m - 1] + u;
      ConcatAssoc([s[0]], t[..m - 1], u);
    }
  }

  /** One space when `s` starts with whitespace. */
  function LeadGap(s: string): string {
    if |s| > 0 && IsSpace(s[0]) then " " else ""
  }

  /** One space when `s` ends with whitespace that follows a word. */
  function TrailGap(s: string): string {
    if |s| > 0 && IsSpace(s[|s| - 1]) && Words(s) != [] then " " else ""
  }

  lemma JoinCons(sep: string, a: string, ws: seq<string>)
    requires ws != []
    ensures Join(sep, [a] + ws) == a + sep + Join(sep, ws)
  {
    assert ([a] + ws)[1..] == ws;
  }

  /**
   * `re.sub(r"\s+", " ", s)` is the words of `s` joined by single spaces,
   * with one space in front when `s` starts with whitespace and one behind
   * when it ends with whitespace after a word.
   */
  lemma {:induction false} CollapseWords(s: string)
    ensures CollapseSpace(s) == LeadGap(s) + Join(" ", Words(s)) + TrailGap(s)
    decreases |s|
  {
    if |s| == 0 {
    } else if IsSpace(s[0]) {
      CollapseWords(s[LeadingSpace(s)..]);
      CollapseWordsAfterSpace(s);
    } else {
      CollapseWords(s[WordLength(s)..]);
      CollapseWordsAfterWord(s);
    }
  }

  /** The step of `CollapseWords` for a string that starts with whitespace. */
  lemma CollapseWordsAfterSpace(s: string)
    requires |s| > 0 && IsSpace(s[0])
    requires var t := s[LeadingSpace(s)..];
      CollapseSpace(t) == LeadGap(t) + Join(" ", Words(t)) + TrailGap(t)
    ensures CollapseSpace(s) == LeadGap(s) + Join(" ", Words(s)) + TrailGap(s)
  {
    var t := s[LeadingSpace(s)..];
    var j := Join(" ", Words(t));
    WordsSkipSpace(s);
    assert LeadGap(t) == "";
    ConcatEmpty(j);
    if |t| > 0 {
      assert t[|t| - 1] == s[|s| - 1];
    }
    assert TrailGap(t) == TrailGap(s);
    assert CollapseSpace(s) == " " + CollapseSpace(t);
    assert CollapseSpace(t) == j + TrailGap(s);
    ConcatAssoc(" ", j, TrailGap(s));
  }

  /** The step of `CollapseWords` for a string that starts with a word. */
  lemma CollapseWordsAfterWord(s: string)
    requires |s| > 0 && !IsSpace(s[0])
    requires var rest := s[WordLength(s)..];
      CollapseSpace(rest) == LeadGap(rest) + Join(" ", Words(rest)) + TrailGap(rest)
    ensures CollapseSpace(s) == LeadGap(s) + Join(" ", Words(s)) + TrailGap(s)
  {
    var w := WordLength(s);
    CollapseWordPrefix(s, w);
    WordsOfWord(s);
    SplitAt(s, w);
    WordThenRest(s, s[..w], s[w..], CollapseSpace(s));
  }

  /** A word followed by text that is empty or starts with whitespace. */
  lemma WordThenRest(s: string, word: string, rest: string, c: string)
    requires |word| > 0 && NoSpace(word) && s == word + rest
    requires Words(s) == [word] + Words(rest)
    requires rest != [] ==> IsSpace(rest[0])
    requires c == word + (LeadGap(rest) + Join(" ", Words(rest)) + TrailGap(rest))
    ensures c == LeadGap(s) + Join(" ", Words(s)) + TrailGap(s)
  {
    assert s[0] == word[0] && LeadGap(s) == "";
    if Words(rest) == [] {
      WordThenSpace(s, word, rest, c);
    } else {
      WordThenWords(s, word, rest, c);
    }
    ConcatEmpty(Join(" ", Words(s)));
  }

  lemma WordThenSpace(s: string, word: string, rest: string, c: string)
    requires |word| > 0 && NoSpace(word) && s == word + rest
    requires Words(s) == [word] && Words(rest) == []
    requires rest != [] ==> IsSpace(rest[0])
    requires c == word + (LeadGap(rest) + Join(" ", Words(rest)) + TrailGap(rest))
    ensures c == Join(" ", Words(s)) + TrailGap(s)
  {
    if |rest| == 0 {
      assert s == word && s[|s| - 1] == word[|word| - 1];
      assert c == word + "";
    } else {
      assert rest[|rest| - 1] == s[|s| - 1];
      WordsNoneAllSpace(rest);
      assert c == word + " ";
    }
  }

  lemma TrailGapSuffix(s: string, rest: string)
    requires |rest| > 0 && |s| > 0 && rest[|rest| - 1] == s[|s| - 1]
    requires Words(rest) != [] && Words(s) != []
    ensures TrailGap(rest) == TrailGap(s)
  {
  }

  lemma LastOfAppend(a: string, b: string)
    requires |b| > 0
    ensures (a + b)[|a + b| - 1] == b[|b| - 1]
  {
  }

  lemma WordThenWords(s: string, word: string, rest: string, c: string)
    requires |word| > 0 && s == word + rest
    requires Words(s) == [word] + Words(rest) && Words(rest) != []
    requires IsSpace(rest[0])
    requires c == word + (LeadGap(rest) + Join(" ", Words(rest)) + TrailGap(rest))
    ensures c == Join(" ", Words(s)) + TrailGap(s)
  {
    var j := Join(" ", Words(rest));
    LastOfAppend(word, rest);
    TrailGapSuffix(s, rest);
    JoinCons(" ", word, Words(rest));
    ConcatEmpty(" " + j);
    ConcatAssoc(word, " " + j, TrailGap(s));
    ConcatAssoc(word, " ", j);
  }

  /** Words joined by single spaces have no whitespace at either end. */
  lemma JoinedWordsTrimmed(ws: seq<string>)
    requires forall k :: 0 <= k < |ws| ==> ws[k] != [] && NoSpace(ws[k])
    ensures Trimmed(Join(" ", ws))
  {
    if |ws| > 0 {
      var j := Join(" ", ws);
      var last := ws[|ws| - 1];
      JoinEnds(" ", ws);
      PrefixFirst(ws[0], j);
      SuffixLast(j, last);
      assert !IsSpace(ws[0][0]) && !IsSpace(last[|last| - 1]);
    }
  }

  lemma PrefixFirst(a: string, b: string)
    requires a <= b && |a| > 0
    ensures b[0] == a[0]
  {
  }

  lemma SuffixLast(b: string, x: string)
    requires EndsWith(b, x) && |x| > 0
    ensures b[|b| - 1] == x[|x| - 1]
  {
    assert b[|b| - |x|..][|x| - 1] == b[|b| - 1];
  }

  lemma GapSpace(g: string)
    requires g == " " || g == ""
    ensures AllSpace(g)
  {
  }

  /** Collapsing whitespace runs and then stripping leaves the words joined by single spaces. */
  lemma StripCollapsed(s: string)
    ensures Strip(CollapseSpace(s)) == Join(" ", Words(s))
  {
    var lead, words, trail := LeadGap(s), Join(" ", Words(s)), TrailGap(s);
    CollapseWords(s);
    JoinedWordsTrimmed(Words(s));
    GapSpace(lead);
    GapSpace(trail);
    StripPadded(lead, words, trail);
  }

  /** Leading whitespace ends where text that starts with a non-space character begins. */
  lemma {:induction false} LeadingSpacePad(a: string, y: string)
    requires AllSpace(a) && (y == [] || !IsSpace(y[0]))
    ensures LeadingSpace(a + y) == |a|
    decreases |a|
  {
    if |a| == 0 {
      assert a + y == y;
    } else {
      assert (a + y)[0] == a[0];
      assert (a + y)[1..] == a[1..] + y;
      LeadingSpacePad(a[1..], y);
    }
  }

  /** Trailing whitespace starts where text that ends with a non-space character ends. */
  lemma {:induction false} TrailingStartPad(y: string, b: string)
    requires AllSpace(b) && (y == [] || !IsSpace(y[|y| - 1]))
    ensures TrailingStart(y + b) == |y|
    decreases |b|
  {
    if |b| == 0 {
      assert y + b == y;
    } else {
      var s := y + b;
      assert s[|s| - 1] == b[|b| - 1];
      assert s[..|s| - 1] == y + b[..|b| - 1];
      TrailingStartPad(y, b[..|b| - 1]);
    }
  }

  /** Stripping removes exactly whitespace padding around trimmed text. */
  lemma StripPadded(a: string, x: string, b: string)
    requires AllSpace(a) && AllSpace(b) && Trimmed(x)
    ensures Strip(a + x + b) == x
  {
    var s := a + x + b;
    ConcatAssoc(a, x, b);
    if |x| == 0 {
      assert s == a + b;
      assert AllSpace(s) by {
        forall k | 0 <= k < |s| ensures IsSpace(s[k]) {
          if k < |a| { assert s[k] == a[k]; } else { assert s[k] == b[k - |a|]; }
        }
      }
      LeadingSpacePad(s, "");
      assert s + "" == s;
    } else {
      LeadingSpacePad(a, x + b);
      assert s[|a|..] == x + b;
      TrailingStartPad(x, b);
      assert (x + b)[..|x|] == x;
    }
  }

  /** Index of the first line break in `s`, or `|s|` when there is none. */
  function BreakIndex(s: string): (e: nat)
    ensures e <= |s| && NoBreak(s[..e])
    ensures e < |s| ==> IsLineBreak(s[e])
  {
    if |s| == 0 || IsLineBreak(s[0]) then 0
    else
      var m := BreakIndex(s[1..]);
      TakeCons(s, m);
      1 + m
  }

  /**
   * Python's `str.splitlines()`: `\r\n` ends a line as one break, and a
   * break at the very end opens no further, empty line.
   */
  function SplitLines(s: string): (r: seq<string>)
    ensures forall k :: 0 <= k < |r| ==> NoBreak(r[k])
    decreases |s|
  {
    if |s| == 0 then []
    else
      var e := BreakIndex(s);
      if e == |s| then [s]
      else
        var width := if s[e] == '\r' && e + 1 < |s| && s[e + 1] == '\n' then 2 else 1;
        [s[..e]] + SplitLines(s[e + width..])
  }

  /** What `splitlines` consumes after a line: one break character, or `\r\n` as a whole. */
  predicate IsBreakText(b: string) {
    (|b| == 1 && IsLineBreak(b[0])) || b == "\r\n"
  }

  /** Each line followed by the break that ended it, concatenated. */
  function Rebuild(ls: seq<string>, bs: seq<string>): (s: string)
    requires |ls| == |bs|
    ensures |ls| > 0 ==> ls[0] + bs[0] <= s
    decreases |ls|
  {
    if |ls| == 0 then "" else ls[0] + bs[0] + Rebuild(ls[1..], bs[1..])
  }

  /**
   * `s` is every line of `ls` followed by the break in `bs` that ended it.
   * Only the last line may lack a break, and then it is not empty; a lone
   * `\r` break is never followed by `\n`, since that pair is one break.
   */
  predicate Decomposes(s: string, ls: seq<string>, bs: seq<string>) {
    && |ls| == |bs|
    && Rebuild(ls, bs) == s
    && (forall i :: 0 <= i < |bs| ==> IsBreakText(bs[i]) || (i == |bs| - 1 && bs[i] == []))
    && (forall i :: 0 <= i < |bs| && bs[i] == [] ==> ls[i] != [])
    && (forall i :: 0 <= i < |bs| - 1 && bs[i] == "\r" ==> !("\n" <= ls[i + 1] + bs[i + 1]))
  }

  /** A line with its break in front of a decomposed text. */
  lemma ConsLine(line: string, b: string, rest: string, ls: seq<string>, bs: seq<string>)
    requires Decomposes(rest, ls, bs)
    requires IsBreakText(b)
    requires b == "\r" ==> !("\n" <= rest)
    ensures Decomposes(line + b + rest, [line] + ls, [b] + bs)
  {
    var ls', bs' := [line] + ls, [b] + bs;
    assert ls'[1..] == ls && bs'[1..] == bs;
    forall i | 0 < i < |bs'|
      ensures IsBreakText(bs'[i]) || (i == |bs'| - 1 && bs'[i] == [])
      ensures bs'[i] == [] ==> ls'[i] != []
    {
      assert bs'[i] == bs[i - 1] && ls'[i] == ls[i - 1];
    }
    forall i | 0 < i < |bs'| - 1 && bs'[i] == "\r"
      ensures !("\n" <= ls'[i + 1] + bs'[i + 1])
    {
      assert bs'[i] == bs[i - 1] && ls'[i + 1] == ls[i] && bs'[i + 1] == bs[i];
    }
  }

  /** `splitlines` loses nothing but the breaks, and it cuts at every break. */
  lemma {:induction false} SplitLinesRebuild(s: string) returns (bs: seq<string>)
    ensures Decomposes(s, SplitLines(s), bs)
    decreases |s|
  {
    if |s| == 0 {
      bs := [];
    } else {
      var e := BreakIndex(s);
      if e == |s| {
        bs := [""];
        assert s + "" + "" == s;
      } else {
        var crlf := s[e] == '\r' && e + 1 < |s| && s[e + 1] == '\n';
        var width := if crlf then 2 else 1;
        var rest := s[e + width..];
        var more := SplitLinesRebuild(rest);
        var b := s[e..e + width];
        assert SplitLines(s) == [s[..e]] + SplitLines(rest);
        SplitAt(s, e);
        DropSplit(s, e, e + width);
        ConcatAssoc(s[..e], b, rest);
        SliceChars(s, e, width);
        ConsLine(s[..e], b, rest, SplitLines(rest), more);
        bs := [b] + more;
      }
    }
  }

  /** Each line followed by a newline. */
  function Unlines(ls: seq<string>): string {
    if |ls| == 0 then "" else ls[0] + "\n" + Unlines(ls[1..])
  }

  /** A line without breaks, then a newline: the first break is that newline. */
  lemma {:induction false} BreakAfterLine(l: string, rest: string)
    requires NoBreak(l)
    ensures BreakIndex(l + "\n" + rest) == |l|
    decreases |l|
  {
    if |l| > 0 {
      assert (l + "\n" + rest)[1..] == l[1..] + "\n" + rest;
      BreakAfterLine(l[1..], rest);
    }
  }

  /** Splitting newline-terminated lines that hold no break of their own gives those lines back. */
  lemma {:induction false} SplitUnlines(ls: seq<string>)
    requires forall k :: 0 <= k < |ls| ==> NoBreak(ls[k])
    ensures SplitLines(Unlines(ls)) == ls
  {
    if |ls| > 0 {
      var l := ls[0];
      var s := Unlines(ls);
      assert s == l + "\n" + Unlines(ls[1..]);
      BreakAfterLine(l, Unlines(ls[1..]));
      assert s[..|l|] == l;
      assert s[|l| + 1..] == Unlines(ls[1..]);
      SplitUnlines(ls[1..]);
    }
  }

  /** Python's `sep.join(ls)`. */
  function Join(sep: string, ls: seq<string>): string {
    if |ls| == 0 then ""
    else if |ls| == 1 then ls[0]
    else ls[0] + sep + Join(sep, ls[1..])
  }

  /** Joining with newlines and adding one more newline terminates every line. */
  lemma {:induction false} JoinThenNewline(ls: seq<string>)
    requires |ls| > 0
    ensures Join("\n", ls) + "\n" == Unlines(ls)
  {
    if |ls| > 1 {
      JoinThenNewline(ls[1..]);
    }
  }

  /** A join starts with its first piece and ends with its last. */
  lemma {:induction false} JoinEnds(sep: string, ls: seq<string>)
    requires |ls| > 0
    ensures ls[0] <= Join(sep, ls)
    ensures EndsWith(Join(sep, ls), ls[|ls| - 1])
  {
    if |ls| > 1 {
      JoinEnds(sep, ls[1..]);
      assert ls[1..][|ls| - 2] == ls[|ls| - 1];
      EndsWithAppend(ls[0] + sep, Join(sep, ls[1..]), ls[|ls| - 1]);
    }
  }
}

=== FILE: wrappers.dfy ===
/** The optional value used wherever the source returns `None` or a value. */
module Wrappers {

  datatype Option<+T> = None | Some(value: T)
}
